=== FILE: README.md ===
# Screen-share negotiation core in Dafny

This project models the WebRTC negotiation logic of a browser screen-sharing app. There are two pages.

- **Host page.** It captures the screen and keeps one peer connection per viewer in a registry (`peerConnections`, keyed by the viewer's socket id). For each joining viewer it creates an offer, filters that offer down to video payload types 96 and 97 (`filterToVp8Only`), sends it, and caps the video sender's bitrate. It routes answers and connectivity candidates back to the right connection. `stopSharing` closes every registered connection.
- **Viewer page.** `joinRoom` tears down the previous connection and socket listeners, then registers fresh ones. The offer listener only proceeds from the `stable` signalling state. Remote candidates that arrive before the remote description is set are queued, then flushed in order once it is set. `host-stopped` and `host-disconnected` close the connection.

Each handler is one atomic step. It maps an immutable state record to the next one (`Host.Step`, `Viewer.Step`), and `Run` folds a sequence of events. Whatever the browser decides appears as a parameter of the event. That covers the offer text `createOffer` yields, whether `setRemoteDescription` or `createAnswer` succeeds, the capture result, and the encodings `getParameters` reports. Every message a page sends goes to its `log`.

Modules:

| module | file | contents |
|---|---|---|
| `Wrappers` | wrappers.dfy | `Option` |
| `SdpText` | sdp_text.dfy | `String.split("\r\n")` and `Array.join("\r\n")`, with the round trips between them |
| `SdpFilter` | sdp_filter.dfy | `filterToVp8Only`, line by line and on whole descriptions |
| `Rtc` | rtc.dfy | the browser records the pages use: descriptions, peer connections, senders, socket messages |
| `Host`, `HostProperties` | host.dfy, host_properties.dfy | the host page's handlers, and what they guarantee |
| `Viewer`, `ViewerProperties` | viewer.dfy, viewer_properties.dfy | `joinRoom`, its listeners and their dispatch, and what they guarantee |

The model follows the code as written. These are the points where what the code does is easy to misread:

- **A replaced connection is not closed.** `createPC` overwrites the registry entry for a viewer id without closing the connection stored there. The model keeps every connection ever created, so the consequence can be stated: after a rejoin, `stopSharing` leaves the first connection open (`RejoinThenStopLeaksFirst`).
- **The local description is the unfiltered offer.** The host sets its local description from the offer as created and sends the filtered text. The two agree only when filtering changes nothing (`LocalDescriptionIsUnfiltered`).
- **The filter applies in every media section.** Lines naming payload types other than 96/97 are dropped from every media section, audio included (`DropsAudioCodec`).
- **The host adds remote candidates at once.** It does not buffer them.
- **The viewer flushes its queue on every successful `setRemoteDescription`.** After the first one the queue stays empty, so later flushes add nothing.
- **A viewer joining before the host has a stream** still gets a registered connection. The handler then throws at `stream.getTracks()`, so no offer is sent.
- **An empty encodings list makes the bitrate step throw.** The sender's parameters then stay unchanged. A missing list is replaced by one encoding.
- **Closing a viewer connection does not empty its queue.** The pending candidates stay where they are.
- **Non-video media lines keep their payload lists.** An `m=audio … 111` line passes through unchanged, still listing 111, while the `a=rtpmap:111` and `a=fmtp:111` lines that describe it are dropped (`MediaPayloadListOutlivesItsMap`).
- **A failed offer leaves a connection behind.** When `createOffer` or `setLocalDescription` rejects, the registered connection keeps its tracks, and nothing is sent or capped.
- **The viewer's listeners never check who sent a message.** The host page has no handler for a viewer leaving, so it never closes that viewer's connection, whose candidate callback keeps sending to the viewer's socket id. After the viewer joins room A and then room B, a late candidate from A's host is queued in B's session and later added to B's connection, and a late offer from A's host is answered by B while B is `stable` (`RejoinedSessionTakesOldHostsCandidates`, `RejoinedSessionAnswersAnyOffer`). Only the opposite direction of isolation holds: nothing reaches A's session (`RejoinIsolatesOldSession`).

## Model

| member | source | states |
|---|---|---|
| SdpText.SplitYieldsLines | src/pages/HostPage.jsx:42 | every piece of `sdp.split('\r\n')` is a single line without CRLF |
| SdpText.JoinSplit | src/pages/HostPage.jsx:42-56 | joining the pieces of a CRLF split with CRLF gives back the original text, for every text |
| SdpText.SplitJoin | src/pages/HostPage.jsx:42-56 | splitting the CRLF join of a non-empty list of single lines gives back exactly that list |
| SdpFilter.DigitRun | src/pages/HostPage.jsx:48-49 | the greedy `\d+` match: a prefix of the input, all digits, and followed by a non-digit or the end |
| SdpFilter.DigitRunOfDigits | src/pages/HostPage.jsx:48-49 | the digit run of digits followed by a non-digit (or nothing) is exactly those digits |
| SdpFilter.PayloadType | src/pages/HostPage.jsx:48-49 | an `a=rtpmap:`/`a=fmtp:`/`a=rtcp-fb:` line names a payload type exactly when a digit follows the colon, and the payload type is a non-empty run of digits |
| SdpFilter.AttributePayloadType | src/pages/HostPage.jsx:48-49 | `a=rtpmap:`, `a=fmtp:` or `a=rtcp-fb:` followed by digits is not a video media line and names exactly those digits, whatever text follows them |
| SdpFilter.FilterLines | src/pages/HostPage.jsx:45-54 | the filter never produces more lines than it is given |
| SdpFilter.FilterLineCases | src/pages/HostPage.jsx:45-54 | a video media line becomes the fixed `m=video 9 UDP/TLS/RTP/SAVPF 96 97`; a payload line for anything but 96/97 is dropped; every other line is kept verbatim |
| SdpFilter.FilterLinesAppend | src/pages/HostPage.jsx:45-54 | the filter works line by line: filtering a concatenation is concatenating the filtered parts |
| SdpFilter.FilterLinesAt | src/pages/HostPage.jsx:45-54 | the output is the filtered prefix, then what the filter makes of line i (fixed video line, nothing, or the line itself), then the filtered suffix |
| SdpFilter.FilterLinesMembership | src/pages/HostPage.jsx:45-54 | a line is in the output iff it is the fixed video line and the input has a video media line, or it is an input line that is neither a video media line nor dropped |
| SdpFilter.FilterLinesClean | src/pages/HostPage.jsx:40-57 | every output line is clean: no `a=rtpmap`/`a=fmtp`/`a=rtcp-fb` line names a payload type other than 96/97, and a video media line is the fixed one |
| SdpFilter.FilterLinesFixedPoint | src/pages/HostPage.jsx:40-57 | the filter leaves a list of lines unchanged iff every line is already clean |
| SdpFilter.FilterLinesIdempotent | src/pages/HostPage.jsx:40-57 | filtering filtered lines changes nothing |
| SdpFilter.FilterLinesKeepsLines | src/pages/HostPage.jsx:45-56 | single lines stay single lines: the filter never introduces a CRLF |
| SdpFilter.FilterSdpLines | src/pages/HostPage.jsx:40-57 | the CRLF lines of the filtered description are exactly the filtered lines of the input, or the result is empty when no line survives |
| SdpFilter.FilterSdpOnlyAllowedPayloads | src/pages/HostPage.jsx:40-57 | every line of the filtered description is clean: no `a=rtpmap`/`a=fmtp`/`a=rtcp-fb` line names a payload type other than 96/97, and the only video media line is the fixed one |
| SdpFilter.FilterSdpIdempotent | src/pages/HostPage.jsx:40-57 | filtering a filtered description gives the same text back |
| SdpFilter.DropsLongerPayloadNumber | src/pages/HostPage.jsx:48-50 | `a=rtpmap:960 …` is dropped: the whole digit run `960` is the payload type, not its prefix `96` |
| SdpFilter.KeepsWildcardFeedback | src/pages/HostPage.jsx:48-52 | `a=rtcp-fb:* nack` names no payload type and passes through unchanged |
| SdpFilter.DropsAudioCodec | src/pages/HostPage.jsx:48-50 | an audio codec's `a=fmtp:111 …` line is dropped as well |
| SdpFilter.MediaPayloadListOutlivesItsMap | src/pages/HostPage.jsx:45-53 | a non-video media line passes through still listing its payload types, while the `a=rtpmap` line for a listed type other than 96/97 is dropped |
| Rtc.Close | src/pages/HostPage.jsx:112 | closing a connection makes it closed and keeps its descriptions, added candidates and senders |
| Rtc.AddCandidate | src/pages/HostPage.jsx:127 | an added candidate comes after every earlier one; signalling state, descriptions and senders are unchanged |
| Host.CreatePC | src/pages/HostPage.jsx:19-38 | one new open connection addressed to the target is registered under its id; other entries and all earlier connections are unchanged, so a connection the id had before is dropped but not closed |
| Host.OnStartSharing | src/pages/HostPage.jsx:82-108 | mobile gives the mobile error, then an empty room id gives the room-id error, then a failed capture gives the capture error, each with nothing else changed; a successful capture keeps the captured stream, starts streaming and sends exactly one `create-room` with the room id and password, changing nothing else |
| Host.CapBitrate | src/pages/HostPage.jsx:75-77 | missing encodings become one encoding at 5 000 000 bit/s; an empty list throws; otherwise the first encoding gets the cap, keeps its rid, and the rest are unchanged |
| Host.FirstVideo | src/pages/HostPage.jsx:73 | `find` for the first sender whose track is video: it is video, no earlier sender is, and there is none exactly when no sender is video |
| Host.ApplyBitrateCap | src/pages/HostPage.jsx:73-79 | only the first video sender's encodings change, and only when the cap does not throw; every track stays in place |
| HostProperties.FirstVideoDependsOnTracks | src/pages/HostPage.jsx:73 | which sender is the first video sender depends on the tracks alone, not on the encodings |
| HostProperties.ViewerJoinedCapsVideo | src/pages/HostPage.jsx:61-79 | after a join, the new connection's senders carry the stream's tracks in order; once the offer is set, the first video sender's encodings are exactly the capped ones (a missing list becomes one encoding at 5 000 000, rid and later encodings kept) unless the list was empty, and the other senders keep theirs; when the offer fails no sender is capped |
| HostProperties.ViewerJoinedRegisters | src/pages/HostPage.jsx:59-60 | a join adds exactly one open connection for the viewer, registers it under the viewer id, and touches no other entry or earlier connection |
| HostProperties.ViewerJoinedSendsOneOffer | src/pages/HostPage.jsx:59-71 | with a stream and a set offer, exactly one `offer` of type offer goes to the viewer, its text the filtered offer and so every line clean, while the local description is the unfiltered offer; without a stream, or when creating or setting the offer rejects, nothing is sent and no local description is set |
| HostProperties.LocalDescriptionIsUnfiltered | src/pages/HostPage.jsx:63-70 | once an offer is sent, the local description equals it iff filtering leaves the offer unchanged |
| HostProperties.StopClosesRegistered | src/pages/HostPage.jsx:110-119 | stopping closes every registered connection, empties the registry, drops the stream, sends one `host-stopped`, and leaves unregistered connections as they were |
| HostProperties.UnknownSenderIgnored | src/pages/HostPage.jsx:123-128 | an answer or candidate from an id with no registered connection changes nothing |
| HostProperties.AnswerRoutedToSender | src/pages/HostPage.jsx:123-125 | an accepted answer from a registered viewer becomes that viewer's connection's remote description, and the connection returns to `stable`; its local description, candidates, senders and every other part of the page are unchanged; any other answer changes nothing |
| HostProperties.BroadcastsSetOneField | src/pages/HostPage.jsx:129-130 | `update-viewers` replaces the viewer list and `error-message` replaces the shown error, and nothing else changes |
| HostProperties.CandidateAppliedAtOnce | src/pages/HostPage.jsx:126-128 | a candidate from a registered viewer is added to that viewer's connection at once, after the earlier ones; nothing else changes |
| HostProperties.CapBitrateIdempotent | src/pages/HostPage.jsx:76-77 | capping already capped parameters changes nothing |
| HostProperties.StepKeepsRegisteredLive | src/pages/HostPage.jsx:19-128 | every handler keeps the invariant that registered connections are open |
| HostProperties.StepOnlyAppends | src/pages/HostPage.jsx:19-128 | every handler only appends connections and messages, keeps each connection's viewer, and never reopens a closed connection |
| HostProperties.RunOnlyAppends | src/pages/HostPage.jsx:121-138 | over any sequence of events, registered connections stay open, connections and messages are only appended, and closed connections stay closed |
| HostProperties.InitialRegisteredLive | src/pages/HostPage.jsx:5 | the empty registry of the first render, and every state reached from it by any events, has only open connections registered |
| HostProperties.RepeatedJoinsLeaveOldConnectionsOpen | src/pages/HostPage.jsx:19-38 | after n joins of the same viewer, n connections were added, the registry holds only the newest, and every one of them is still open |
| HostProperties.RejoinThenStopLeaksFirst | src/pages/HostPage.jsx:110-113 | join, rejoin, stop: the second connection is closed, but the first one is still open and unreachable |
| HostProperties.LocalCandidateAddressedToItsViewer | src/pages/HostPage.jsx:30-34 | a discovered candidate goes to the viewer its connection was created for, registered or not; no candidate means nothing is sent |
| Viewer.Off | src/pages/ViewerPage.jsx:22-26 | `socket.off(name)` leaves no listener of that name and keeps every listener of another event |
| Viewer.OffAppend | src/pages/ViewerPage.jsx:22-26 | `socket.off(name)` works listener by listener: on a concatenation it acts on each part, so the survivors keep their order and repeats |
| Viewer.OffKeepsOthers | src/pages/ViewerPage.jsx:22-26 | a listener list without that name is left exactly as it is |
| Viewer.OffListened | src/pages/ViewerPage.jsx:21-26 | the five `socket.off` calls leave no listener at all |
| Viewer.Handle | src/pages/ViewerPage.jsx:74-124 | among the sessions, a listener changes only its own; the session count, current connection and listener list are unchanged (the viewer-wide error, video and log fields may change) |
| ViewerProperties.InitialInv | src/pages/ViewerPage.jsx:4 | the first render satisfies the listener and closed-connection invariant |
| ViewerProperties.JoinWithoutRoomIdDoesNothing | src/pages/ViewerPage.jsx:13 | `joinRoom` without a room id changes nothing at all |
| ViewerProperties.JoinReplacesSession | src/pages/ViewerPage.jsx:12-37 | a join closes the current connection (keeping its queue and flag), leaves other sessions alone, makes a fresh current session with `remoteSet` false and an empty queue, and sends exactly one `join-room` |
| ViewerProperties.JoinRebindsListeners | src/pages/ViewerPage.jsx:21-124 | after a join there are exactly five listeners, one per event, all bound to the new session |
| ViewerProperties.RegistrationsOnePerEvent | src/pages/ViewerPage.jsx:74-124 | the five registrations name five distinct events, one for each event |
| ViewerProperties.JoinKeepsInv | src/pages/ViewerPage.jsx:12-125 | a join keeps listeners bound only to the current session and every older connection closed |
| ViewerProperties.DispatchNoMatch | src/pages/ViewerPage.jsx:74-124 | a message with no listener for its event changes nothing |
| ViewerProperties.DispatchOne | src/pages/ViewerPage.jsx:74-124 | a message with exactly one listener for its event has exactly that listener's effect |
| ViewerProperties.DeliverReachesCurrentOnly | src/pages/ViewerPage.jsx:21-26 | a socket message changes nothing before the first join; afterwards it runs the current session's listener alone and leaves every other session untouched |
| ViewerProperties.StepKeepsInv | src/pages/ViewerPage.jsx:12-125 | every event keeps the invariant: listeners belong to the current session and every older connection is closed |
| ViewerProperties.CandidateQueuedUntilRemoteSet | src/pages/ViewerPage.jsx:103-110 | a candidate is added at once when the remote description is set; otherwise it is queued and not added; the flag and signalling state are kept and nothing is sent |
| ViewerProperties.OfferIgnoredUnlessStable | src/pages/ViewerPage.jsx:74-101 | an offer outside `stable`, or one whose remote description is rejected, changes nothing |
| ViewerProperties.OfferFlushesQueue | src/pages/ViewerPage.jsx:81-100 | an offer accepted in `stable` sets `remoteSet`, adds the queued candidates after the earlier ones and empties the queue; an answer goes to the offer's sender with the viewer's socket id, or nothing is sent if answering fails |
| ViewerProperties.HostGoneClosesConnection | src/pages/ViewerPage.jsx:112-122 | `host-stopped` detaches the video and closes the connection; `host-disconnected` reports "Host disconnected." and closes it; neither sends anything |
| ViewerProperties.StepKeepsCandidateLog | src/pages/ViewerPage.jsx:74-110 | each event keeps the current session's added candidates followed by its queued ones equal to the arrivals so far; nothing is queued after the remote description is set, and nothing is added before it |
| ViewerProperties.RunKeepsCandidateLog | src/pages/ViewerPage.jsx:74-110 | the same bookkeeping holds over any run of events without a new join |
| ViewerProperties.JoinThenCandidatesInArrivalOrder | src/pages/ViewerPage.jsx:36-110 | after a join and any run of events without another join, the added candidates are exactly the arrivals in order once the remote description is set; until then all are queued and none is added |
| ViewerProperties.RunLeavesOtherSessionsAlone | src/pages/ViewerPage.jsx:15-26 | without a new join, no event reaches any session except the current one |
| ViewerProperties.RejoinIsolatesOldSession | src/pages/ViewerPage.jsx:15-26 | after a rejoin, the earlier session is closed, and nothing later except another join reaches it |
| ViewerProperties.EarlyCandidatesFlushedInOrder | src/pages/ViewerPage.jsx:83-97 | three candidates before the offer are queued and none is added; an answered offer then adds all three in arrival order and sends one answer |
| ViewerProperties.ErrorMessageShown | src/pages/ViewerPage.jsx:124 | after a join, `error-message` sets the shown error and nothing else |
| ViewerProperties.TrackUnmutedShowsVideo | src/pages/ViewerPage.jsx:52-57 | an unmuted track with a stream shows the video and changes nothing else; without a stream nothing changes |
| ViewerProperties.RejoinedSessionTakesOldHostsCandidates | src/pages/ViewerPage.jsx:103-110 | after joining A then B, a candidate from any sender, A's host included, is queued in B's session and not added, and nothing is sent |
| ViewerProperties.RejoinedSessionAnswersAnyOffer | src/pages/ViewerPage.jsx:74-101 | after joining A then B, an offer from any sender, A's host included, becomes B's remote description, and B answers that sender |
| ViewerProperties.LocalCandidateAddressedToHost | src/pages/ViewerPage.jsx:39-43 | a candidate the viewer discovers is sent to `host`, and nothing else changes |

## Left out

- ICE server configuration (STUN/TURN addresses and credentials), candidate gathering and media transport are left out. Candidates are opaque strings.
- The socket server and its transport are left out. Outgoing messages are appended to a log. Incoming messages are events with the fields the handlers read.
- Capture (`getDisplayMedia`) and the requested resolution are left out. The capture result, a list of tracks or a failure, is a parameter of `StartSharing`, and the resolution string is not parsed.
- The user-agent test `isMobile` is left out. Its verdict is a boolean parameter.
- Stopping the captured tracks and setting or clearing `srcObject` on the host's video element are left out. So is `play()`.
- The viewer's `ontrack`/`onunmute` handlers, the delayed debug logging and all console output are left out. The `ontrack`/`onunmute` handlers are reduced to a `TrackUnmuted` event that marks the video as showing.
- Promise interleaving is left out. Each async handler runs to completion as one step, so an `await` can never let another message in.
- The host's `useEffect` listener re-registration on every stream change is left out. The model's handlers always see the current stream, which is what the re-registered closures see.
- A rejection of `setParameters` is left out. The bitrate step is assumed to be accepted. The browser's verdict on the host's `setRemoteDescription` is the `accepted` parameter of an answer.
- Rtc.AddCandidate: `applied` records every call of `addIceCandidate`, not whether the browser accepted it. A browser rejects the call on a closed connection, and also before a remote description is set.
- HostProperties.CandidateAppliedAtOnce: a candidate from a registered viewer is recorded even when it arrives before that viewer's answer is set (src/pages/HostPage.jsx:127). The browser would reject that call, and the model does not track the rejection.
- The landing page and the router (`Home.jsx`, `App.js`) are left out. They hold no negotiation logic.
- Viewer.OnJoin, Viewer.Dispatch, Viewer.Deliver and Host.Step carry only the well-formedness of the state they return. What they do is stated by the `ViewerProperties` and `HostProperties` lemmas above and by `Host.OnStartSharing`'s own contract. Every host event (start and stop sharing, a viewer joining, an answer, a candidate, a local candidate, `update-viewers`, `error-message`) and every viewer event (a join, each of the five messages, a local candidate, an unmuted track) is covered by one of them.

=== FILE: host.dfy ===
/**
 * The host page: the `peerConnections` registry from viewer id to peer
 * connection, and the handlers that drive it (start and stop sharing, a
 * viewer joining, answers and candidates coming back, the candidate
 * callback of each connection). Every handler is one atomic step from a
 * `Host` record to the next.
 */
module Host {
  import opened Wrappers
  import opened Rtc
  import SdpFilter

  /** The bitrate ceiling put on the video sender's first encoding, in bit/s. */
  const MaxBitrate: nat := 5_000_000

  const MobileError: string := "Screen sharing is not supported on mobile."
  const RoomIdError: string := "Room ID is required."
  const CaptureError: string := "Failed to start screen sharing."

  /** A connection made by `createPC`, with the viewer id its candidate callback addresses. */
  datatype Conn = Conn(target: string, pc: Peer)

  /**
   * The host page's state. `conns` holds every connection ever created, in
   * creation order, so that one dropped from the registry can still be
   * looked at; a handle is an index into it. `registry` is `peerConnections`.
   */
  datatype Host = Host(
    conns: seq<Conn>,
    registry: map<string, nat>,
    stream: Option<seq<Track>>,
    streaming: bool,
    viewers: seq<string>,
    error: string,
    log: seq<Message>)
  {
    /** Every registered handle names a connection. */
    predicate Valid() {
      forall id :: id in registry ==> registry[id] < |conns|
    }
  }

  /** The page as first rendered: no stream, no connection, nothing sent. */
  const Initial: Host := Host([], map[], None, false, [], "", [])

  /** One thing that can happen to the host page. */
  datatype Event =
    | StartSharing(roomId: string, password: string, mobile: bool, capture: Option<seq<Track>>)
    | StopSharing
    | ViewerJoined(viewerId: string, offer: Option<string>, encodings: Option<seq<Encoding>>)
    | AnswerFrom(from: string, desc: Description, accepted: bool)
    | CandidateFrom(from: string, candidate: Candidate)
    | LocalCandidate(handle: nat, discovered: Option<Candidate>)
    | UpdateViewers(viewers: seq<string>)
    | ErrorMessage(text: string)

  /**
   * `createPC(target)`: a fresh connection is stored under `target`. An
   * earlier connection under the same id is dropped from the registry but
   * left exactly as it was, open if it was open.
   */
  function CreatePC(h: Host, target: string): (r: Host)
    requires h.Valid()
    ensures r.Valid()
    ensures |r.conns| == |h.conns| + 1 && r.conns[..|h.conns|] == h.conns
    ensures r.conns[|h.conns|] == Conn(target, NewPeer)
    ensures target in r.registry && r.registry[target] == |h.conns|
    ensures forall id :: id != target ==> (id in r.registry <==> id in h.registry)
    ensures forall id :: id != target && id in h.registry ==> r.registry[id] == h.registry[id]
    ensures r.log == h.log && r.stream == h.stream && r.streaming == h.streaming
  {
    var r := h.(conns := h.conns + [Conn(target, NewPeer)],
                registry := h.registry[target := |h.conns|]);
    assert r.conns[..|h.conns|] == h.conns;
    r
  }

  /** `startSharing`: the two guards, then the capture, then `create-room`. */
  function OnStartSharing(h: Host, roomId: string, password: string, mobile: bool,
                          capture: Option<seq<Track>>): (r: Host)
    ensures r.conns == h.conns && r.registry == h.registry
    ensures mobile ==> r == h.(error := MobileError)
    ensures !mobile && roomId == "" ==> r == h.(error := RoomIdError)
    ensures !mobile && roomId != "" && capture.None? ==> r == h.(error := CaptureError)
    ensures !mobile && roomId != "" && capture.Some? ==>
      r == h.(stream := capture, streaming := true, log := h.log + [CreateRoom(roomId, password)])
    ensures r.log != h.log <==> !mobile && roomId != "" && capture.Some?
    ensures r.streaming <==> h.streaming || (!mobile && roomId != "" && capture.Some?)
  {
    if mobile then h.(error := MobileError)
    else if roomId == "" then h.(error := RoomIdError)
    else match capture
      case None => h.(error := CaptureError)
      case Some(tracks) =>
        h.(stream := Some(tracks), streaming := true,
           log := h.log + [CreateRoom(roomId, password)])
  }

  /**
   * The bitrate step on a sender's parameters. Missing encodings become one
   * fresh encoding; the first encoding gets the ceiling. An empty list has
   * no first encoding, the assignment throws, and None says so.
   */
  function CapBitrate(encodings: Option<seq<Encoding>>): (r: Option<seq<Encoding>>)
    ensures r.None? <==> encodings == Some([])
    ensures r.Some? ==> |r.value| >= 1 && r.value[0].maxBitrate == Some(MaxBitrate)
    ensures encodings.None? ==> r == Some([Encoding(Some(MaxBitrate), None)])
    ensures encodings.Some? && r.Some? ==>
      && |r.value| == |encodings.value|
      && r.value[0].rid == encodings.value[0].rid
      && r.value[1..] == encodings.value[1..]
  {
    match encodings
    case None => Some([Encoding(Some(MaxBitrate), None)])
    case Some(es) =>
      if |es| == 0 then None
      else Some([es[0].(maxBitrate := Some(MaxBitrate))] + es[1..])
  }

  /** The position of the first sender whose track is video, if there is one. */
  function FirstVideo(senders: seq<Sender>): (r: Option<nat>)
    ensures r.Some? ==> r.value < |senders| && senders[r.value].track.kind == Video
    ensures r.Some? ==> forall j :: 0 <= j < r.value ==> senders[j].track.kind != Video
    ensures r.None? <==> forall j :: 0 <= j < |senders| ==> senders[j].track.kind != Video
    decreases |senders|
  {
    if |senders| == 0 then None
    else if senders[0].track.kind == Video then Some(0)
    else match FirstVideo(senders[1..])
      case None => None
      case Some(i) => Some(i + 1)
  }

  /**
   * The bitrate step on all senders: the first video sender gets the capped
   * parameters; without a video sender, or when the cap throws, nothing changes.
   */
  function ApplyBitrateCap(senders: seq<Sender>): (r: seq<Sender>)
    ensures |r| == |senders|
    ensures forall j :: 0 <= j < |r| ==> r[j].track == senders[j].track
    ensures FirstVideo(senders).None? ==> r == senders
    ensures FirstVideo(senders).Some? ==>
      var i := FirstVideo(senders).value;
      && (forall j :: 0 <= j < |r| && j != i ==> r[j] == senders[j])
      && (CapBitrate(senders[i].encodings).Some? ==>
            r[i].encodings == CapBitrate(senders[i].encodings))
      && (CapBitrate(senders[i].encodings).None? ==> r == senders)
  {
    match FirstVideo(senders)
    case None => senders
    case Some(i) =>
      match CapBitrate(senders[i].encodings)
      case None => senders
      case Some(es) => senders[i := senders[i].(encodings := Some(es))]
  }

  /** `addTrack` for every track of the stream, each sender starting with `encodings`. */
  function SendersFor(tracks: seq<Track>, encodings: Option<seq<Encoding>>): (r: seq<Sender>)
    ensures |r| == |tracks|
    ensures forall j :: 0 <= j < |r| ==> r[j] == Sender(tracks[j], encodings)
  {
    seq(|tracks|, j requires 0 <= j < |tracks| => Sender(tracks[j], encodings))
  }

  /** The offer the host sends a joining viewer: the filtered text, typed `offer`. */
  function OfferFor(viewerId: string, offerSdp: string): (m: Message) {
    OfferTo(viewerId, Description(OfferType, SdpFilter.FilterSdp(offerSdp)))
  }

  /**
   * `handleViewerJoined`: create and register a connection, add the stream's
   * tracks, set the unfiltered offer as local description, send the filtered
   * offer, then cap the video sender's bitrate. `offer` is the text
   * `createOffer` yields, or None when `createOffer` or `setLocalDescription`
   * rejects: the handler then stops with the tracks added, nothing sent and
   * no bitrate cap. Without a stream the handler throws right after
   * registering the connection.
   */
  function OnViewerJoined(h: Host, viewerId: string, offer: Option<string>,
                          encodings: Option<seq<Encoding>>): (r: Host)
    requires h.Valid()
    ensures r.Valid()
  {
    var h1 := CreatePC(h, viewerId);
    var k := |h.conns|;
    match h.stream
    case None => h1
    case Some(tracks) =>
      var senders := SendersFor(tracks, encodings);
      match offer
      case None =>
        h1.(conns := h1.conns[k := Conn(viewerId, h1.conns[k].pc.(senders := senders))])
      case Some(offerSdp) =>
        var pc := h1.conns[k].pc.(signaling := HaveLocalOffer,
                                  local := Some(Description(OfferType, offerSdp)),
                                  senders := ApplyBitrateCap(senders));
        h1.(conns := h1.conns[k := Conn(viewerId, pc)],
            log := h1.log + [OfferFor(viewerId, offerSdp)])
  }

  /**
   * `stopSharing`: close every registered connection, empty the registry,
   * drop the stream and tell the viewers.
   */
  function OnStopSharing(h: Host): (r: Host)
    requires h.Valid()
    ensures r.Valid()
  {
    var live := h.registry.Values;
    h.(conns := seq(|h.conns|, i requires 0 <= i < |h.conns| =>
                      if i in live then h.conns[i].(pc := Close(h.conns[i].pc)) else h.conns[i]),
       registry := map[],
       stream := None,
       streaming := false,
       log := h.log + [HostStopped])
  }

  /** The `answer` listener: hand the answer to the sender's connection, if it has one. */
  function OnAnswer(h: Host, from: string, desc: Description, accepted: bool): (r: Host)
    requires h.Valid()
    ensures r.Valid()
  {
    if from in h.registry && accepted then
      var k := h.registry[from];
      h.(conns := h.conns[k := h.conns[k].(pc := h.conns[k].pc.(signaling := Stable,
                                                                 remote := Some(desc)))])
    else h
  }

  /** The `ice-candidate` listener: add the candidate to the sender's connection at once. */
  function OnCandidate(h: Host, from: string, c: Candidate): (r: Host)
    requires h.Valid()
    ensures r.Valid()
  {
    if from in h.registry then
      var k := h.registry[from];
      h.(conns := h.conns[k := h.conns[k].(pc := AddCandidate(h.conns[k].pc, c))])
    else h
  }

  /** A connection's `onicecandidate`: forward a discovered candidate to its viewer. */
  function OnLocalCandidate(h: Host, handle: nat, c: Option<Candidate>): (r: Host) {
    if handle < |h.conns| && c.Some? then
      h.(log := h.log + [IceCandidateTo(h.conns[handle].target, c.value)])
    else h
  }

  function Step(h: Host, e: Event): (r: Host)
    requires h.Valid()
    ensures r.Valid()
  {
    match e
    case StartSharing(roomId, password, mobile, capture) =>
      OnStartSharing(h, roomId, password, mobile, capture)
    case StopSharing => OnStopSharing(h)
    case ViewerJoined(viewerId, offer, encodings) =>
      OnViewerJoined(h, viewerId, offer, encodings)
    case AnswerFrom(from, desc, accepted) => OnAnswer(h, from, desc, accepted)
    case CandidateFrom(from, c) => OnCandidate(h, from, c)
    case LocalCandidate(handle, c) => OnLocalCandidate(h, handle, c)
    case UpdateViewers(viewers) => h.(viewers := viewers)
    case ErrorMessage(text) => h.(error := text)
  }

  /** The state after a sequence of events, one after another. */
  function Run(h: Host, es: seq<Event>): (r: Host)
    requires h.Valid()
    ensures r.Valid()
    decreases |es|
  {
    if |es| == 0 then h else Run(Step(h, es[0]), es[1..])
  }
}

=== FILE: host_properties.dfy ===
/**
 * Properties of the host page's handlers, one call at a time and over
 * whole sequences of events.
 */
module HostProperties {
  import opened Wrappers
  import opened Rtc
  import opened Host
  import SdpText
  import SdpFilter

  /** Connections in the registry are never closed ones. */
  predicate RegisteredLive(h: Host) {
    h.Valid() && forall id :: id in h.registry ==> !h.conns[h.registry[id]].pc.IsClosed()
  }

  /**
   * The send parameters the joining viewer's connection ends with. Every
   * track of the stream gets a sender, in order. Once the offer is set, the
   * first video sender's encodings are exactly the capped ones unless the
   * list was empty (then the cap throws and they stay empty); every other
   * sender, and every sender when the offer failed, keeps the encodings
   * the browser reported.
   */
  lemma ViewerJoinedCapsVideo(h: Host, viewerId: string, offer: Option<string>,
                              encodings: Option<seq<Encoding>>)
    requires h.Valid() && h.stream.Some?
    ensures var r := OnViewerJoined(h, viewerId, offer, encodings);
            var senders := r.conns[|h.conns|].pc.senders;
            && |senders| == |h.stream.value|
            && (forall j :: 0 <= j < |senders| ==> senders[j].track == h.stream.value[j])
            && (offer.None? ==> forall j :: 0 <= j < |senders| ==> senders[j].encodings == encodings)
            && (offer.Some? ==>
                match FirstVideo(senders)
                case None => forall j :: 0 <= j < |senders| ==> senders[j].encodings == encodings
                case Some(i) =>
                  && (forall j :: 0 <= j < |senders| && j != i ==> senders[j].encodings == encodings)
                  && (encodings != Some([]) ==>
                        && senders[i].encodings == CapBitrate(encodings)
                        && |senders[i].encodings.value| >= 1
                        && senders[i].encodings.value[0].maxBitrate == Some(MaxBitrate))
                  && (encodings == Some([]) ==> senders[i].encodings == Some([])))
  {
    var senders := SendersFor(h.stream.value, encodings);
    var capped := ApplyBitrateCap(senders);
    assert FirstVideo(capped) == FirstVideo(senders) by {
      FirstVideoDependsOnTracks(senders, capped);
    }
  }

  /** The first video sender is found from the tracks alone. */
  lemma {:induction false} FirstVideoDependsOnTracks(a: seq<Sender>, b: seq<Sender>)
    requires |a| == |b|
    requires forall j :: 0 <= j < |a| ==> a[j].track == b[j].track
    ensures FirstVideo(a) == FirstVideo(b)
    decreases |a|
  {
    if |a| > 0 && a[0].track.kind != Video {
      FirstVideoDependsOnTracks(a[1..], b[1..]);
    }
  }

  /**
   * A viewer joining: exactly one new connection, registered under its id,
   * no other registry entry and no earlier connection touched (in particular
   * a connection the id had before is not closed).
   */
  lemma ViewerJoinedRegisters(h: Host, viewerId: string, offer: Option<string>,
                              encodings: Option<seq<Encoding>>)
    requires h.Valid()
    ensures var r := OnViewerJoined(h, viewerId, offer, encodings);
            && |r.conns| == |h.conns| + 1
            && r.conns[..|h.conns|] == h.conns
            && r.conns[|h.conns|].target == viewerId
            && !r.conns[|h.conns|].pc.IsClosed()
            && viewerId in r.registry && r.registry[viewerId] == |h.conns|
            && (forall id :: id != viewerId ==> (id in r.registry <==> id in h.registry))
            && (forall id :: id != viewerId && id in h.registry ==> r.registry[id] == h.registry[id])
  {
    var r := OnViewerJoined(h, viewerId, offer, encodings);
    if h.stream.Some? {
      assert r.conns[..|h.conns|] == CreatePC(h, viewerId).conns[..|h.conns|];
    }
  }

  /**
   * The message a joining viewer causes. With a stream and an offer that
   * was set, exactly one message is sent: an `offer` to that viewer whose
   * text is the filtered offer, so every line of it is clean, while the
   * connection's local description is the unfiltered offer. Without a
   * stream, or when creating or setting the offer fails, nothing is sent
   * and the connection has no local description.
   */
  lemma ViewerJoinedSendsOneOffer(h: Host, viewerId: string, offer: Option<string>,
                                  encodings: Option<seq<Encoding>>)
    requires h.Valid()
    ensures var r := OnViewerJoined(h, viewerId, offer, encodings);
            h.stream.None? ==> r.log == h.log && r.conns[|h.conns|].pc == NewPeer
    ensures var r := OnViewerJoined(h, viewerId, offer, encodings);
            offer.None? ==>
              && r.log == h.log
              && r.conns[|h.conns|].pc.local.None?
              && r.conns[|h.conns|].pc.signaling == Stable
    ensures var r := OnViewerJoined(h, viewerId, offer, encodings);
            h.stream.Some? && offer.Some? ==>
              && |r.log| == |h.log| + 1 && r.log[..|h.log|] == h.log
              && r.log[|h.log|].OfferTo?
              && r.log[|h.log|].targetId == viewerId
              && r.log[|h.log|].desc.kind == OfferType
              && r.log[|h.log|].desc.sdp == SdpFilter.FilterSdp(offer.value)
              && (forall i :: 0 <= i < |SdpText.Split(r.log[|h.log|].desc.sdp)| ==>
                    SdpFilter.Clean(SdpText.Split(r.log[|h.log|].desc.sdp)[i]))
              && r.conns[|h.conns|].pc.local == Some(Description(OfferType, offer.value))
              && r.conns[|h.conns|].pc.signaling == HaveLocalOffer
  {
    var r := OnViewerJoined(h, viewerId, offer, encodings);
    if h.stream.Some? && offer.Some? {
      SdpFilter.FilterSdpOnlyAllowedPayloads(offer.value);
      assert r.log == h.log + [OfferFor(viewerId, offer.value)];
      assert r.log[..|h.log|] == h.log;
    }
  }

  /**
   * Once an offer is sent, the local description equals what was sent only
   * when filtering changed nothing.
   */
  lemma LocalDescriptionIsUnfiltered(h: Host, viewerId: string, offer: Option<string>,
                                     encodings: Option<seq<Encoding>>)
    requires h.Valid() && h.stream.Some?
    ensures var r := OnViewerJoined(h, viewerId, offer, encodings);
            offer.Some? ==>
              (r.conns[|h.conns|].pc.local.value == r.log[|h.log|].desc
               <==> SdpFilter.FilterSdp(offer.value) == offer.value)
  {
    ViewerJoinedSendsOneOffer(h, viewerId, offer, encodings);
  }

  /**
   * Stopping: every registered connection is closed, the registry is empty,
   * no stream is kept, exactly one `host-stopped` is sent, and connections
   * outside the registry are left as they were.
   */
  lemma StopClosesRegistered(h: Host)
    requires h.Valid()
    ensures var r := OnStopSharing(h);
            && r.registry == map[]
            && |r.conns| == |h.conns|
            && (forall id :: id in h.registry ==> r.conns[h.registry[id]].pc.IsClosed())
            && (forall i :: 0 <= i < |h.conns| && i !in h.registry.Values ==> r.conns[i] == h.conns[i])
            && (forall i :: 0 <= i < |h.conns| ==>
                  r.conns[i].target == h.conns[i].target
                  && r.conns[i].pc.applied == h.conns[i].pc.applied)
            && r.stream.None? && !r.streaming
            && r.log == h.log + [HostStopped]
  {
    var r := OnStopSharing(h);
    forall id | id in h.registry ensures r.conns[h.registry[id]].pc.IsClosed() {
      assert h.registry[id] in h.registry.Values;
    }
  }

  /** An answer or candidate from a viewer without a registered connection changes nothing. */
  lemma UnknownSenderIgnored(h: Host, from: string, desc: Description, accepted: bool, c: Candidate)
    requires h.Valid() && from !in h.registry
    ensures Step(h, AnswerFrom(from, desc, accepted)) == h
    ensures Step(h, CandidateFrom(from, c)) == h
  {
  }

  /**
   * A candidate from a registered viewer is added to that viewer's
   * connection at once, after the ones added before; nothing else changes.
   */
  lemma CandidateAppliedAtOnce(h: Host, from: string, c: Candidate)
    requires h.Valid() && from in h.registry
    ensures var r := Step(h, CandidateFrom(from, c));
            var k := h.registry[from];
            && r.conns[k].pc.applied == h.conns[k].pc.applied + [c]
            && r.conns[k].pc.signaling == h.conns[k].pc.signaling
            && r.conns[k] == h.conns[k].(pc := AddCandidate(h.conns[k].pc, c))
            && |r.conns| == |h.conns|
            && (forall j :: 0 <= j < |h.conns| && j != k ==> r.conns[j] == h.conns[j])
            && r.registry == h.registry && r.log == h.log
            && r.stream == h.stream && r.streaming == h.streaming
            && r.viewers == h.viewers && r.error == h.error
  {
  }

  /**
   * An `answer` from a registered viewer that the browser accepts becomes
   * the remote description of that viewer's connection, which returns to
   * `stable`; nothing else changes. Any other answer changes nothing.
   */
  lemma AnswerRoutedToSender(h: Host, from: string, desc: Description, accepted: bool)
    requires h.Valid()
    ensures !(from in h.registry && accepted) ==> Step(h, AnswerFrom(from, desc, accepted)) == h
    ensures from in h.registry && accepted ==>
              var r := Step(h, AnswerFrom(from, desc, accepted));
              var k := h.registry[from];
              && r.conns[k].pc.remote == Some(desc)
              && r.conns[k].pc.signaling == Stable
              && r.conns[k].pc.local == h.conns[k].pc.local
              && r.conns[k].pc.applied == h.conns[k].pc.applied
              && r.conns[k].pc.senders == h.conns[k].pc.senders
              && r.conns[k].target == h.conns[k].target
              && |r.conns| == |h.conns|
              && (forall j :: 0 <= j < |h.conns| && j != k ==> r.conns[j] == h.conns[j])
              && r.registry == h.registry && r.log == h.log
              && r.stream == h.stream && r.streaming == h.streaming
              && r.viewers == h.viewers && r.error == h.error
  {
  }

  /** `update-viewers` replaces the viewer list and `error-message` the shown error; nothing else changes. */
  lemma BroadcastsSetOneField(h: Host, viewers: seq<string>, text: string)
    requires h.Valid()
    ensures Step(h, UpdateViewers(viewers)) == h.(viewers := viewers)
    ensures Step(h, ErrorMessage(text)) == h.(error := text)
  {
  }

  /** Capping the bitrate twice is the same as capping it once. */
  lemma CapBitrateIdempotent(encodings: Option<seq<Encoding>>)
    requires CapBitrate(encodings).Some?
    ensures CapBitrate(CapBitrate(encodings)) == CapBitrate(encodings)
  {
    var es := CapBitrate(encodings).value;
    assert es == [es[0]] + es[1..];
  }

  /** Every handler keeps the registered connections open. */
  lemma StepKeepsRegisteredLive(h: Host, e: Event)
    requires RegisteredLive(h)
    ensures RegisteredLive(Step(h, e))
  {
    var r := Step(h, e);
    match e {
      case StopSharing =>
      case ViewerJoined(viewerId, offer, encodings) =>
        ViewerJoinedRegisters(h, viewerId, offer, encodings);
        forall id | id in r.registry ensures !r.conns[r.registry[id]].pc.IsClosed() {
          if id != viewerId {
            assert r.conns[r.registry[id]] == r.conns[..|h.conns|][h.registry[id]];
          }
        }
      case _ =>
    }
  }

  /**
   * Every handler only adds to what the page has done: connections are only
   * appended, a closed connection stays closed, and messages are only appended.
   */
  lemma StepOnlyAppends(h: Host, e: Event)
    requires RegisteredLive(h)
    ensures var r := Step(h, e);
            && |h.conns| <= |r.conns|
            && h.log <= r.log
            && (forall i :: 0 <= i < |h.conns| ==> r.conns[i].target == h.conns[i].target)
            && (forall i :: 0 <= i < |h.conns| && h.conns[i].pc.IsClosed() ==> r.conns[i].pc.IsClosed())
  {
    var r := Step(h, e);
    match e {
      case ViewerJoined(viewerId, offer, encodings) =>
        ViewerJoinedRegisters(h, viewerId, offer, encodings);
        ViewerJoinedSendsOneOffer(h, viewerId, offer, encodings);
        forall i | 0 <= i < |h.conns| ensures r.conns[i] == h.conns[i] {
          assert r.conns[i] == r.conns[..|h.conns|][i];
        }
      case AnswerFrom(from, desc, accepted) =>
      case CandidateFrom(from, c) =>
      case _ =>
    }
  }

  /**
   * Over any run from a page whose registered connections are open,
   * they stay open, connections and messages are only appended, and
   * closed connections stay closed.
   */
  lemma {:induction false} RunOnlyAppends(h: Host, es: seq<Event>)
    requires RegisteredLive(h)
    ensures RegisteredLive(Run(h, es))
    ensures var r := Run(h, es);
            && |h.conns| <= |r.conns|
            && h.log <= r.log
            && (forall i :: 0 <= i < |h.conns| && h.conns[i].pc.IsClosed() ==> r.conns[i].pc.IsClosed())
    decreases |es|
  {
    if |es| > 0 {
      StepKeepsRegisteredLive(h, es[0]);
      StepOnlyAppends(h, es[0]);
      RunOnlyAppends(Step(h, es[0]), es[1..]);
    }
  }

  /** The page as first rendered satisfies the invariant, and so does every page reached from it. */
  lemma InitialRegisteredLive(es: seq<Event>)
    ensures RegisteredLive(Initial)
    ensures RegisteredLive(Run(Initial, es))
  {
    RunOnlyAppends(Initial, es);
  }

  predicate AllJoinsOf(es: seq<Event>, viewerId: string) {
    forall i :: 0 <= i < |es| ==> es[i].ViewerJoined? && es[i].viewerId == viewerId
  }

  /**
   * The same viewer joining again and again: the registry holds exactly the
   * newest connection under its id and nothing else changes in it, while
   * every connection made for the earlier joins stays open.
   */
  lemma {:induction false} RepeatedJoinsLeaveOldConnectionsOpen(h: Host, viewerId: string, es: seq<Event>)
    requires h.Valid()
    requires |es| >= 1 && AllJoinsOf(es, viewerId)
    ensures var r := Run(h, es);
            && |r.conns| == |h.conns| + |es|
            && r.conns[..|h.conns|] == h.conns
            && viewerId in r.registry && r.registry[viewerId] == |r.conns| - 1
            && (forall id :: id != viewerId ==> (id in r.registry <==> id in h.registry))
            && (forall id :: id != viewerId && id in h.registry ==> r.registry[id] == h.registry[id])
            && (forall j :: |h.conns| <= j < |r.conns| ==>
                  r.conns[j].target == viewerId && !r.conns[j].pc.IsClosed())
    decreases |es|
  {
    var e := es[0];
    var h1 := Step(h, e);
    ViewerJoinedRegisters(h, viewerId, e.offer, e.encodings);
    if |es| > 1 {
      assert AllJoinsOf(es[1..], viewerId) by {
        forall i | 0 <= i < |es[1..]| ensures es[1..][i].ViewerJoined? && es[1..][i].viewerId == viewerId {
          assert es[1..][i] == es[i + 1];
        }
      }
      RepeatedJoinsLeaveOldConnectionsOpen(h1, viewerId, es[1..]);
      var r := Run(h1, es[1..]);
      assert r.conns[..|h.conns|] == r.conns[..|h1.conns|][..|h.conns|];
      forall j | |h.conns| <= j < |r.conns|
        ensures r.conns[j].target == viewerId && !r.conns[j].pc.IsClosed()
      {
        if j == |h.conns| {
          assert r.conns[j] == r.conns[..|h1.conns|][j];
        }
      }
    } else {
      assert Run(h1, es[1..]) == h1;
    }
  }

  /**
   * A viewer that joins twice and then sees the host stop: the second
   * connection is closed, but the first, dropped from the registry by the
   * second join, is still open.
   */
  lemma RejoinThenStopLeaksFirst(h: Host, viewerId: string, sdp1: Option<string>, sdp2: Option<string>,
                                 enc1: Option<seq<Encoding>>, enc2: Option<seq<Encoding>>)
    requires h.Valid()
    ensures var h1 := Step(h, ViewerJoined(viewerId, sdp1, enc1));
            var h2 := Step(h1, ViewerJoined(viewerId, sdp2, enc2));
            var r := Step(h2, StopSharing);
            && |r.conns| == |h.conns| + 2
            && !r.conns[|h.conns|].pc.IsClosed()
            && r.conns[|h.conns| + 1].pc.IsClosed()
            && r.registry == map[]
  {
    var es := [ViewerJoined(viewerId, sdp1, enc1), ViewerJoined(viewerId, sdp2, enc2)];
    RepeatedJoinsLeaveOldConnectionsOpen(h, viewerId, es);
    var h1 := Step(h, es[0]);
    var h2 := Step(h1, es[1]);
    assert es[1..] == [es[1]] && es[1..][1..] == [];
    assert Run(h1, es[1..]) == Run(h2, []);
    StopClosesRegistered(h2);
    assert |h.conns| !in h2.registry.Values by {
      forall id | id in h2.registry ensures h2.registry[id] != |h.conns| {
        if id != viewerId {
          assert h2.registry[id] == h.registry[id];
        }
      }
    }
  }

  /**
   * A candidate a connection discovers is sent to the viewer that
   * connection was made for, whether or not the registry still holds it;
   * a callback without a candidate sends nothing.
   */
  lemma LocalCandidateAddressedToItsViewer(h: Host, handle: nat, c: Option<Candidate>)
    requires h.Valid() && handle < |h.conns|
    ensures var r := Step(h, LocalCandidate(handle, c));
            && r.conns == h.conns && r.registry == h.registry
            && (c.None? ==> r.log == h.log)
            && (c.Some? ==> r.log == h.log + [IceCandidateTo(h.conns[handle].target, c.value)])
  {
  }
}

=== FILE: rtc.dfy ===
/**
 * The browser and socket objects both pages work with, reduced to records.
 * A peer connection is its signalling state, the two descriptions, the log
 * of candidates handed to `addIceCandidate` and its senders; what the
 * browser decides (offer and answer text, whether a description is
 * accepted) arrives as a parameter of the event that asks for it.
 */
module Rtc {
  import opened Wrappers

  /** A connectivity candidate, opaque to the application. */
  type Candidate = string

  datatype SdpType = OfferType | AnswerType

  /** An `RTCSessionDescription`: its type and its text. */
  datatype Description = Description(kind: SdpType, sdp: string)

  /** `RTCPeerConnection.signalingState`, as far as these pages reach it. */
  datatype SignalingState = Stable | HaveLocalOffer | HaveRemoteOffer | Closed

  datatype TrackKind = Audio | Video

  datatype Track = Track(id: string, kind: TrackKind)

  /** One entry of `RTCRtpSendParameters.encodings`. */
  datatype Encoding = Encoding(maxBitrate: Option<nat>, rid: Option<string>)

  /** An `RTCRtpSender`; `encodings` is None while the parameters have none. */
  datatype Sender = Sender(track: Track, encodings: Option<seq<Encoding>>)

  datatype Peer = Peer(
    signaling: SignalingState,
    local: Option<Description>,
    remote: Option<Description>,
    applied: seq<Candidate>,
    senders: seq<Sender>)
  {
    predicate IsClosed() {
      signaling == Closed
    }
  }

  /** A freshly constructed `RTCPeerConnection`. */
  const NewPeer: Peer := Peer(Stable, None, None, [], [])

  /** `close()`: the connection becomes closed; nothing else about it changes. */
  function Close(p: Peer): (r: Peer)
    ensures r.IsClosed()
    ensures r.local == p.local && r.remote == p.remote
    ensures r.applied == p.applied && r.senders == p.senders
  {
    p.(signaling := Closed)
  }

  /** `addIceCandidate(c)`: the candidate is handed to the connection, after every earlier one. */
  function AddCandidate(p: Peer, c: Candidate): (r: Peer)
    ensures r.applied == p.applied + [c]
    ensures r.signaling == p.signaling && r.local == p.local && r.remote == p.remote
    ensures r.senders == p.senders
  {
    p.(applied := p.applied + [c])
  }

  /** A message put on the signalling socket by `socket.emit`. */
  datatype Message =
    | CreateRoom(roomId: string, password: string)
    | JoinRoom(roomId: string, password: string)
    | OfferTo(targetId: string, desc: Description)
    | AnswerTo(targetId: string, desc: Description, from: string)
    | IceCandidateTo(targetId: string, candidate: Candidate)
    | HostStopped
}

=== FILE: sdp_filter.dfy ===
/**
 * The host's codec restriction of an outgoing offer (`filterToVp8Only`).
 * Each line of the description is looked at on its own:
 *  - a media line for video (RFC 8866 section 5.14) is replaced by a fixed
 *    line declaring payload types 96 and 97 only;
 *  - an `a=rtpmap` (RFC 8866 section 6.6), `a=fmtp` (section 6.15) or
 *    `a=rtcp-fb` (RFC 4585 section 4.2) line that names a numeric payload
 *    type is kept only when that number is 96 or 97, in any media section;
 *  - every other line is passed through unchanged.
 */
module SdpFilter {
  import opened Wrappers
  import SdpText

  /** The replacement media line for video. */
  const VideoLine: string := "m=video 9 UDP/TLS/RTP/SAVPF 96 97"
  const VideoPrefix: string := "m=video"
  const RtpmapPrefix: string := "a=rtpmap:"
  const FmtpPrefix: string := "a=fmtp:"
  const RtcpFbPrefix: string := "a=rtcp-fb:"

  predicate StartsWith(s: string, p: string) {
    |p| <= |s| && s[..|p|] == p
  }

  predicate IsDigit(c: char) {
    '0' <= c <= '9'
  }

  /** The longest run of ASCII digits at the start of `s` (what a greedy `\d+` takes). */
  function DigitRun(s: string): (r: string)
    ensures r <= s
    ensures forall i :: 0 <= i < |r| ==> IsDigit(r[i])
    ensures |r| == |s| || !IsDigit(s[|r|])
    decreases |s|
  {
    if |s| > 0 && IsDigit(s[0]) then [s[0]] + DigitRun(s[1..]) else ""
  }

  /** The text after the attribute prefix, when the line starts with one of the three. */
  function AttributeTail(line: string): (tail: Option<string>) {
    if StartsWith(line, RtpmapPrefix) then Some(line[|RtpmapPrefix|..])
    else if StartsWith(line, FmtpPrefix) then Some(line[|FmtpPrefix|..])
    else if StartsWith(line, RtcpFbPrefix) then Some(line[|RtcpFbPrefix|..])
    else None
  }

  /**
   * The payload type an `a=rtpmap:`, `a=fmtp:` or `a=rtcp-fb:` line names:
   * the maximal digit run right after the colon, or None when the line has
   * none of these prefixes or no digit follows the colon (`a=rtcp-fb:*`).
   */
  function PayloadType(line: string): (r: Option<string>)
    ensures r.Some? ==> |r.value| > 0 && (forall i :: 0 <= i < |r.value| ==> IsDigit(r.value[i]))
    ensures r.Some? <==> AttributeTail(line).Some? && |AttributeTail(line).value| > 0
                          && IsDigit(AttributeTail(line).value[0])
  {
    match AttributeTail(line)
    case None => None
    case Some(tail) =>
      var run := DigitRun(tail);
      if |run| > 0 then Some(run) else None
  }

  predicate Allowed(pt: string) {
    pt == "96" || pt == "97"
  }

  predicate IsVideoMedia(line: string) {
    StartsWith(line, VideoPrefix)
  }

  /** A line the filter removes: a payload attribute for a payload type other than 96/97. */
  predicate Dropped(line: string) {
    !IsVideoMedia(line) && PayloadType(line).Some? && !Allowed(PayloadType(line).value)
  }

  /** A line the filter leaves exactly as it is. */
  predicate Clean(line: string) {
    !Dropped(line) && (IsVideoMedia(line) ==> line == VideoLine)
  }

  /** The filter's action on one line: zero or one output line. */
  function FilterLine(line: string): (r: seq<string>) {
    if IsVideoMedia(line) then [VideoLine]
    else if PayloadType(line).Some? then
      (if Allowed(PayloadType(line).value) then [line] else [])
    else [line]
  }

  /** The filter on a whole sequence of lines, keeping their order. */
  function FilterLines(ls: seq<string>): (r: seq<string>)
    ensures |r| <= |ls|
    decreases |ls|
  {
    if |ls| == 0 then [] else FilterLine(ls[0]) + FilterLines(ls[1..])
  }

  /** `filterToVp8Only`: split at CRLF, filter the lines, join with CRLF. */
  function FilterSdp(sdp: string): (r: string) {
    SdpText.Join(FilterLines(SdpText.Split(sdp)))
  }

  /** The one-line behaviour, stated with the classifying predicates. */
  lemma FilterLineCases(line: string)
    ensures IsVideoMedia(line) ==> FilterLine(line) == [VideoLine]
    ensures Dropped(line) ==> FilterLine(line) == []
    ensures !IsVideoMedia(line) && !Dropped(line) ==> FilterLine(line) == [line]
  {
  }

  /** Every output line is clean. */
  lemma {:induction false} FilterLinesClean(ls: seq<string>)
    ensures forall i :: 0 <= i < |FilterLines(ls)| ==> Clean(FilterLines(ls)[i])
    decreases |ls|
  {
    if |ls| > 0 {
      FilterLinesClean(ls[1..]);
      FilterLineCases(ls[0]);
      var head, tail := FilterLine(ls[0]), FilterLines(ls[1..]);
      assert FilterLines(ls) == head + tail;
      forall i | 0 <= i < |head + tail| ensures Clean((head + tail)[i]) {
        if i >= |head| {
          assert (head + tail)[i] == tail[i - |head|];
        }
      }
    }
  }

  /** The filter works line by line: it distributes over concatenation. */
  lemma {:induction false} FilterLinesAppend(a: seq<string>, b: seq<string>)
    ensures FilterLines(a + b) == FilterLines(a) + FilterLines(b)
    decreases |a|
  {
    if |a| == 0 {
      assert a + b == b;
    } else {
      assert (a + b)[1..] == a[1..] + b;
      FilterLinesAppend(a[1..], b);
    }
  }

  /**
   * What happens to the line at position `i`, with the output of the lines
   * before it and after it kept in place: a video media line becomes
   * `VideoLine`, a payload attribute for another payload type disappears,
   * anything else stays as it is.
   */
  lemma FilterLinesAt(ls: seq<string>, i: nat)
    requires i < |ls|
    ensures IsVideoMedia(ls[i]) ==>
      FilterLines(ls) == FilterLines(ls[..i]) + ([VideoLine] + FilterLines(ls[i + 1..]))
    ensures Dropped(ls[i]) ==>
      FilterLines(ls) == FilterLines(ls[..i]) + FilterLines(ls[i + 1..])
    ensures !IsVideoMedia(ls[i]) && !Dropped(ls[i]) ==>
      FilterLines(ls) == FilterLines(ls[..i]) + ([ls[i]] + FilterLines(ls[i + 1..]))
  {
    var pre, post := ls[..i], ls[i + 1..];
    var rest := [ls[i]] + post;
    assert ls == pre + rest;
    FilterLinesAppend(pre, rest);
    assert rest[1..] == post;
    var fpre, fpost := FilterLines(pre), FilterLines(post);
    assert FilterLines(rest) == FilterLine(ls[i]) + fpost;
    FilterLineCases(ls[i]);
    if Dropped(ls[i]) {
      assert FilterLine(ls[i]) + fpost == fpost;
    }
  }

  /** Exactly which lines appear in the output. */
  lemma {:induction false} FilterLinesMembership(ls: seq<string>, o: string)
    ensures o in FilterLines(ls) <==>
      || (o == VideoLine && exists i :: 0 <= i < |ls| && IsVideoMedia(ls[i]))
      || (o in ls && !IsVideoMedia(o) && !Dropped(o))
    decreases |ls|
  {
    if |ls| == 0 {
    } else {
      FilterLinesMembership(ls[1..], o);
      FilterLineCases(ls[0]);
      assert ls == [ls[0]] + ls[1..];
      if o == VideoLine && (exists i :: 0 <= i < |ls| && IsVideoMedia(ls[i])) {
        var i :| 0 <= i < |ls| && IsVideoMedia(ls[i]);
        if i > 0 {
          assert IsVideoMedia(ls[1..][i - 1]);
        }
      }
      if exists i :: 0 <= i < |ls[1..]| && IsVideoMedia(ls[1..][i]) {
        var i :| 0 <= i < |ls[1..]| && IsVideoMedia(ls[1..][i]);
        assert IsVideoMedia(ls[i + 1]);
      }
    }
  }

  /** The filter leaves a sequence alone exactly when every line is already clean. */
  lemma {:induction false} FilterLinesFixedPoint(ls: seq<string>)
    ensures FilterLines(ls) == ls <==> forall i :: 0 <= i < |ls| ==> Clean(ls[i])
    decreases |ls|
  {
    if |ls| == 0 {
    } else {
      FilterLinesFixedPoint(ls[1..]);
      FilterLineCases(ls[0]);
      if forall i :: 0 <= i < |ls| ==> Clean(ls[i]) {
        assert forall i :: 0 <= i < |ls[1..]| ==> Clean(ls[1..][i]) by {
          forall i | 0 <= i < |ls[1..]| ensures Clean(ls[1..][i]) {
            assert ls[1..][i] == ls[i + 1];
          }
        }
        assert ls == [ls[0]] + ls[1..];
      }
      if FilterLines(ls) == ls {
        FilterLinesClean(ls);
      }
    }
  }

  /** Filtering an already filtered sequence of lines changes nothing. */
  lemma FilterLinesIdempotent(ls: seq<string>)
    ensures FilterLines(FilterLines(ls)) == FilterLines(ls)
  {
    FilterLinesClean(ls);
    FilterLinesFixedPoint(FilterLines(ls));
  }

  /** The filter never introduces a CRLF into a line. */
  lemma {:induction false} FilterLinesKeepsLines(ls: seq<string>)
    requires SdpText.AllLines(ls)
    ensures SdpText.AllLines(FilterLines(ls))
    decreases |ls|
  {
    if |ls| > 0 {
      assert SdpText.AllLines(ls[1..]) by {
        forall i | 0 <= i < |ls[1..]| ensures SdpText.NoCrlf(ls[1..][i]) {
          assert ls[1..][i] == ls[i + 1];
        }
      }
      FilterLinesKeepsLines(ls[1..]);
      FilterLineCases(ls[0]);
      assert SdpText.NoCrlf(VideoLine);
      var head := FilterLine(ls[0]);
      var tail := FilterLines(ls[1..]);
      forall i | 0 <= i < |head + tail| ensures SdpText.NoCrlf((head + tail)[i]) {
        if i >= |head| {
          assert (head + tail)[i] == tail[i - |head|];
        }
      }
    }
  }

  /** The lines of a filtered description: the filtered lines of the input. */
  lemma FilterSdpLines(sdp: string)
    ensures FilterLines(SdpText.Split(sdp)) != [] ==>
      SdpText.Split(FilterSdp(sdp)) == FilterLines(SdpText.Split(sdp))
    ensures FilterLines(SdpText.Split(sdp)) == [] ==> FilterSdp(sdp) == ""
  {
    var ls := FilterLines(SdpText.Split(sdp));
    SdpText.SplitYieldsLines(sdp);
    FilterLinesKeepsLines(SdpText.Split(sdp));
    if ls != [] {
      SdpText.SplitJoin(ls);
    }
  }

  /**
   * Every line of a filtered description is clean: the video media line
   * declares payload types 96 and 97 only, and every `a=rtpmap`, `a=fmtp`
   * and `a=rtcp-fb` line that names a payload type names 96 or 97.
   */
  lemma FilterSdpOnlyAllowedPayloads(sdp: string)
    ensures forall i :: 0 <= i < |SdpText.Split(FilterSdp(sdp))| ==>
      Clean(SdpText.Split(FilterSdp(sdp))[i])
  {
    FilterSdpLines(sdp);
    FilterLinesClean(SdpText.Split(sdp));
    if FilterLines(SdpText.Split(sdp)) == [] {
      assert SdpText.Split("") == [""];
      assert Clean("");
    }
  }

  /** Filtering a description twice gives the same text as filtering it once. */
  lemma FilterSdpIdempotent(sdp: string)
    ensures FilterSdp(FilterSdp(sdp)) == FilterSdp(sdp)
  {
    var ls := FilterLines(SdpText.Split(sdp));
    FilterSdpLines(sdp);
    if ls == [] {
      assert SdpText.Split("") == [""];
      assert FilterLines([""]) == [""];
    } else {
      FilterLinesIdempotent(SdpText.Split(sdp));
    }
  }

  /** The digit run stops exactly where the digits stop. */
  lemma {:induction false} DigitRunOfDigits(pt: string, rest: string)
    requires forall i :: 0 <= i < |pt| ==> IsDigit(pt[i])
    requires |rest| == 0 || !IsDigit(rest[0])
    ensures DigitRun(pt + rest) == pt
    decreases |pt|
  {
    if |pt| > 0 {
      assert (pt + rest)[1..] == pt[1..] + rest;
      DigitRunOfDigits(pt[1..], rest);
    } else {
      assert pt + rest == rest;
    }
  }

  /** A line made of one of the three attribute prefixes and a tail: the tail is what follows the prefix. */
  lemma AttributeTailOf(prefix: string, t: string)
    requires prefix == RtpmapPrefix || prefix == FmtpPrefix || prefix == RtcpFbPrefix
    ensures !IsVideoMedia(prefix + t)
    ensures AttributeTail(prefix + t) == Some(t)
  {
    var line := prefix + t;
    assert line[..|prefix|] == prefix;
    assert line[|prefix|..] == t;
    assert line[0] != VideoPrefix[0];
    if prefix == FmtpPrefix {
      assert line[2] != RtpmapPrefix[2];
    } else if prefix == RtcpFbPrefix {
      assert line[4] != RtpmapPrefix[4];
      assert line[2] != FmtpPrefix[2];
    }
  }

  /**
   * An `a=rtpmap:`, `a=fmtp:` or `a=rtcp-fb:` line followed by digits names
   * exactly those digits as its payload type, whatever text follows them.
   */
  lemma AttributePayloadType(prefix: string, pt: string, rest: string)
    requires prefix == RtpmapPrefix || prefix == FmtpPrefix || prefix == RtcpFbPrefix
    requires |pt| > 0 && forall i :: 0 <= i < |pt| ==> IsDigit(pt[i])
    requires |rest| == 0 || !IsDigit(rest[0])
    ensures !IsVideoMedia(prefix + pt + rest)
    ensures PayloadType(prefix + pt + rest) == Some(pt)
  {
    assert prefix + pt + rest == prefix + (pt + rest);
    AttributeTailOf(prefix, pt + rest);
    DigitRunOfDigits(pt, rest);
  }

  /** Worked case: a longer digit run names another payload type. */
  lemma DropsLongerPayloadNumber()
    ensures Dropped("a=rtpmap:960 X/90000")
  {
    var pt, rest := "960", " X/90000";
    AttributePayloadType(RtpmapPrefix, pt, rest);
    assert !Allowed(pt);
    assert Dropped(RtpmapPrefix + pt + rest);
    assert RtpmapPrefix + pt + rest == "a=rtpmap:960 X/90000";
  }

  /** Worked case: a feedback line for every payload (`*`) names no payload type. */
  lemma KeepsWildcardFeedback()
    ensures Clean("a=rtcp-fb:* nack")
  {
    var line := "a=rtcp-fb:* nack";
    assert line[0] != VideoPrefix[0];
    assert line[4] != RtpmapPrefix[4];
    assert line[2] != FmtpPrefix[2];
    assert StartsWith(line, RtcpFbPrefix);
    assert line[|RtcpFbPrefix|..] == "* nack";
  }

  /** Worked case: an audio codec's format parameters are dropped too. */
  lemma DropsAudioCodec()
    ensures Dropped("a=fmtp:111 minptime=10")
  {
    var pt, rest := "111", " minptime=10";
    AttributePayloadType(FmtpPrefix, pt, rest);
    assert !Allowed(pt);
    assert Dropped(FmtpPrefix + pt + rest);
    assert FmtpPrefix + pt + rest == "a=fmtp:111 minptime=10";
  }

  /**
   * A media line other than video passes through unchanged, still listing
   * its payload types, while the map line describing one of them that is
   * not 96 or 97 is dropped: an `m=audio … 111` line survives without its
   * `a=rtpmap:111` line.
   */
  lemma MediaPayloadListOutlivesItsMap(media: string, pt: string, rest: string)
    requires |media| >= 2 && media[..2] == "m=" && !IsVideoMedia(media)
    requires |pt| > 0 && forall i :: 0 <= i < |pt| ==> IsDigit(pt[i])
    requires |rest| == 0 || !IsDigit(rest[0])
    requires !Allowed(pt)
    ensures FilterLines([media, RtpmapPrefix + pt + rest]) == [media]
  {
    assert media[0] != RtpmapPrefix[0] && media[0] != FmtpPrefix[0] && media[0] != RtcpFbPrefix[0];
    assert AttributeTail(media).None?;
    FilterLineCases(media);
    var rtpmap := RtpmapPrefix + pt + rest;
    AttributePayloadType(RtpmapPrefix, pt, rest);
    FilterLineCases(rtpmap);
    var ls := [media, rtpmap];
    assert ls[1..] == [rtpmap] && ls[1..][1..] == [];
  }
}

=== FILE: sdp_text.dfy ===
/**
 * Session descriptions travel as one string whose lines are separated by
 * CRLF (RFC 8866 section 5). This module models the two string operations
 * the host applies around its line filter: `String.prototype.split("\r\n")`
 * and `Array.prototype.join("\r\n")`, and proves that they are inverse.
 */
module SdpText {

  const CRLF: string := "\r\n"

  /** True iff `s` holds no CRLF pair, i.e. `s` is a single line. */
  predicate NoCrlf(s: string) {
    forall i :: 0 <= i < |s| - 1 ==> !(s[i] == '\r' && s[i + 1] == '\n')
  }

  predicate AllLines(ls: seq<string>) {
    forall i :: 0 <= i < |ls| ==> NoCrlf(ls[i])
  }

  /**
   * Splits at every CRLF, scanning left to right, as JavaScript does.
   * The result is never empty: the empty string splits into `[""]`.
   */
  function Split(s: string): (r: seq<string>)
    ensures |r| >= 1
    decreases |s|
  {
    if |s| < 2 then [s]
    else if s[0] == '\r' && s[1] == '\n' then [""] + Split(s[2..])
    else
      var rest := Split(s[1..]);
      [[s[0]] + rest[0]] + rest[1..]
  }

  /** Concatenates the lines with CRLF between neighbours; `[]` joins to "". */
  function Join(ls: seq<string>): (s: string)
    decreases |ls|
  {
    if |ls| == 0 then ""
    else if |ls| == 1 then ls[0]
    else ls[0] + CRLF + Join(ls[1..])
  }

  /** The first piece of a split is a prefix of the input. */
  lemma {:induction false} SplitHeadIsPrefix(s: string)
    ensures Split(s)[0] <= s
    decreases |s|
  {
    if |s| < 2 {
    } else if s[0] == '\r' && s[1] == '\n' {
    } else {
      SplitHeadIsPrefix(s[1..]);
    }
  }

  /** Every piece a split produces is a single line. */
  lemma {:induction false} SplitYieldsLines(s: string)
    ensures AllLines(Split(s))
    decreases |s|
  {
    if |s| < 2 {
    } else if s[0] == '\r' && s[1] == '\n' {
      SplitYieldsLines(s[2..]);
    } else {
      var rest := Split(s[1..]);
      SplitYieldsLines(s[1..]);
      SplitHeadIsPrefix(s[1..]);
      var head := [s[0]] + rest[0];
      forall i | 0 <= i < |head| - 1
        ensures !(head[i] == '\r' && head[i + 1] == '\n')
      {
        if i == 0 {
          assert head[1] == rest[0][0] == s[1];
        } else {
          assert head[i] == rest[0][i - 1] && head[i + 1] == rest[0][i];
        }
      }
    }
  }

  lemma JoinPrependChar(c: char, x: string, ys: seq<string>)
    ensures Join([[c] + x] + ys) == [c] + Join([x] + ys)
  {
    if |ys| == 0 {
    } else {
      assert ([[c] + x] + ys)[1..] == ys;
      assert ([x] + ys)[1..] == ys;
    }
  }

  /** Joining the pieces of a split gives back the original text. */
  lemma {:induction false} JoinSplit(s: string)
    ensures Join(Split(s)) == s
    decreases |s|
  {
    if |s| < 2 {
    } else if s[0] == '\r' && s[1] == '\n' {
      var rest := Split(s[2..]);
      JoinSplit(s[2..]);
      var ls := [""] + rest;
      assert ls[0] == "" && ls[1..] == rest;
      assert Join(ls) == "" + CRLF + Join(rest);
      assert s == CRLF + s[2..];
    } else {
      var rest := Split(s[1..]);
      JoinSplit(s[1..]);
      assert rest == [rest[0]] + rest[1..];
      JoinPrependChar(s[0], rest[0], rest[1..]);
      assert Join(Split(s)) == [s[0]] + Join(rest);
      assert s == [s[0]] + s[1..];
    }
  }

  /** A text without CRLF is one line. */
  lemma {:induction false} SplitSingleLine(a: string)
    requires NoCrlf(a)
    ensures Split(a) == [a]
    decreases |a|
  {
    if |a| < 2 {
    } else {
      assert NoCrlf(a[1..]) by {
        forall i | 0 <= i < |a[1..]| - 1
          ensures !(a[1..][i] == '\r' && a[1..][i + 1] == '\n')
        {
          assert a[1..][i] == a[i + 1] && a[1..][i + 1] == a[i + 2];
        }
      }
      SplitSingleLine(a[1..]);
      assert [a[0]] + a[1..] == a;
    }
  }

  /** A single line followed by CRLF splits off as one piece. */
  lemma {:induction false} SplitLineThenRest(a: string, t: string)
    requires NoCrlf(a)
    ensures Split(a + CRLF + t) == [a] + Split(t)
    decreases |a|
  {
    var s := a + CRLF + t;
    if |a| == 0 {
      assert s[2..] == t;
    } else {
      assert s[0] == a[0];
      assert s[1] != '\n' || s[0] != '\r' by {
        if |a| == 1 {
          assert s[1] == '\r';
        } else {
          assert s[1] == a[1];
        }
      }
      assert NoCrlf(a[1..]) by {
        forall i | 0 <= i < |a[1..]| - 1
          ensures !(a[1..][i] == '\r' && a[1..][i + 1] == '\n')
        {
          assert a[1..][i] == a[i + 1] && a[1..][i + 1] == a[i + 2];
        }
      }
      assert s[1..] == a[1..] + CRLF + t;
      SplitLineThenRest(a[1..], t);
      assert [a[0]] + a[1..] == a;
    }
  }

  /** Splitting the join of single lines gives back those lines. */
  lemma {:induction false} SplitJoin(ls: seq<string>)
    requires |ls| >= 1
    requires AllLines(ls)
    ensures Split(Join(ls)) == ls
    decreases |ls|
  {
    if |ls| == 1 {
      SplitSingleLine(ls[0]);
    } else {
      SplitJoin(ls[1..]);
      SplitLineThenRest(ls[0], Join(ls[1..]));
      assert ls == [ls[0]] + ls[1..];
    }
  }
}

=== FILE: viewer.dfy ===
/**
 * The viewer page: `joinRoom` and the socket listeners it registers. Each
 * call of `joinRoom` makes a session: a new peer connection together with
 * its own `remoteSet` flag and `pendingCandidates` queue, which only that
 * call's listeners see. Socket listeners are kept as a list of
 * (event, session) pairs; `socket.off(name)` removes every listener of that
 * name, `socket.on` appends one, and a message runs every listener of its
 * name in registration order.
 */
module Viewer {
  import opened Wrappers
  import opened Rtc

  const HostDisconnectedError: string := "Host disconnected."

  /** The identity the viewer addresses its candidates to. */
  const HostTarget: string := "host"

  datatype EventName =
    | OfferEvent | IceCandidateEvent | HostStoppedEvent | HostDisconnectedEvent | ErrorMessageEvent

  /** The events `joinRoom` unsubscribes and subscribes again, in its order. */
  const ListenedEvents: seq<EventName> :=
    [OfferEvent, IceCandidateEvent, HostStoppedEvent, HostDisconnectedEvent, ErrorMessageEvent]

  /** A `socket.on` registration: an event and the session whose closure handles it. */
  datatype Listener = Listener(event: EventName, session: nat)

  /** The closure state of one `joinRoom` call. */
  datatype Session = Session(pc: Peer, remoteSet: bool, pending: seq<Candidate>)

  /** A freshly created session: new connection, nothing received, nothing queued. */
  const FreshSession: Session := Session(NewPeer, false, [])

  /**
   * The viewer page's state. `sessions` holds every session ever made, in
   * order, and `current` is `currentPC`; `showing` says whether the video
   * element has a stream attached; `socketId` is the socket's own id.
   */
  datatype Viewer = Viewer(
    sessions: seq<Session>,
    current: Option<nat>,
    listeners: seq<Listener>,
    error: string,
    showing: bool,
    socketId: string,
    log: seq<Message>)
  {
    predicate Valid() {
      && (current.Some? ==> current.value < |sessions|)
      && (forall i :: 0 <= i < |listeners| ==> listeners[i].session < |sessions|)
    }
  }

  /** The page as first rendered. */
  function Initial(socketId: string): (r: Viewer)
    ensures r.Valid() && r.current.None? && r.listeners == [] && r.log == []
  {
    Viewer([], None, [], "", false, socketId, [])
  }

  /** How the browser's steps inside the offer handler turn out. */
  datatype OfferOutcome =
    | RemoteRejected          // setRemoteDescription rejects
    | AnswerFailed            // the remote description is set, createAnswer or setLocalDescription rejects
    | Answered(answerSdp: string)

  /** A message arriving on the socket. */
  datatype Incoming =
    | OfferIn(desc: Description, from: string, outcome: OfferOutcome)
    | CandidateIn(from: string, candidate: Candidate)
    | HostStoppedIn
    | HostDisconnectedIn
    | ErrorIn(text: string)

  /** One thing that can happen to the viewer page. */
  datatype Event =
    | Join(roomId: string, password: string)
    | Receive(msg: Incoming)
    | LocalCandidate(session: nat, discovered: Option<Candidate>)
    | TrackUnmuted(hasStream: bool)

  function NameOf(msg: Incoming): (n: EventName) {
    match msg
    case OfferIn(_, _, _) => OfferEvent
    case CandidateIn(_, _) => IceCandidateEvent
    case HostStoppedIn => HostStoppedEvent
    case HostDisconnectedIn => HostDisconnectedEvent
    case ErrorIn(_) => ErrorMessageEvent
  }

  /** `socket.off(name)`: every listener of that name goes, the others stay in order. */
  function Off(ls: seq<Listener>, name: EventName): (r: seq<Listener>)
    ensures |r| <= |ls|
    ensures forall i :: 0 <= i < |r| ==> r[i].event != name && r[i] in ls
    ensures forall l :: l in ls && l.event != name ==> l in r
    decreases |ls|
  {
    if |ls| == 0 then []
    else if ls[0].event == name then Off(ls[1..], name)
    else [ls[0]] + Off(ls[1..], name)
  }

  /**
   * `socket.off(name)` works listener by listener: taking a name off a
   * concatenation takes it off each part, so the survivors keep their
   * order and their repeats.
   */
  lemma {:induction false} OffAppend(a: seq<Listener>, b: seq<Listener>, name: EventName)
    ensures Off(a + b, name) == Off(a, name) + Off(b, name)
    decreases |a|
  {
    if |a| == 0 {
      assert a + b == b;
    } else {
      assert (a + b)[1..] == a[1..] + b;
      OffAppend(a[1..], b, name);
    }
  }

  /** A list with no listener of that name is left exactly as it is. */
  lemma {:induction false} OffKeepsOthers(ls: seq<Listener>, name: EventName)
    requires forall i :: 0 <= i < |ls| ==> ls[i].event != name
    ensures Off(ls, name) == ls
    decreases |ls|
  {
    if |ls| > 0 {
      OffKeepsOthers(ls[1..], name);
    }
  }

  /**
   * The five `socket.off` calls of `joinRoom`. Every listener the page
   * registers is for one of these events, so none is left.
   */
  function OffListened(ls: seq<Listener>): (r: seq<Listener>)
    ensures r == []
  {
    OffListenedLeavesNothing(ls);
    Off(Off(Off(Off(Off(ls, OfferEvent), IceCandidateEvent), HostStoppedEvent),
            HostDisconnectedEvent), ErrorMessageEvent)
  }

  /** The events of the remaining listeners shrink by the one taken off. */
  lemma OffNarrows(ls: seq<Listener>, name: EventName, names: set<EventName>)
    requires forall i :: 0 <= i < |ls| ==> ls[i].event in names
    ensures forall i :: 0 <= i < |Off(ls, name)| ==> Off(ls, name)[i].event in names - {name}
    ensures names <= {name} ==> Off(ls, name) == []
  {
    var r := Off(ls, name);
    forall i | 0 <= i < |r| ensures r[i].event in names - {name} {
      assert r[i] in ls;
    }
  }

  lemma OffListenedLeavesNothing(ls: seq<Listener>)
    ensures Off(Off(Off(Off(Off(ls, OfferEvent), IceCandidateEvent), HostStoppedEvent),
                    HostDisconnectedEvent), ErrorMessageEvent) == []
  {
    var all := {OfferEvent, IceCandidateEvent, HostStoppedEvent, HostDisconnectedEvent, ErrorMessageEvent};
    forall i | 0 <= i < |ls| ensures ls[i].event in all {
      match ls[i].event
      case OfferEvent =>
      case IceCandidateEvent =>
      case HostStoppedEvent =>
      case HostDisconnectedEvent =>
      case ErrorMessageEvent =>
    }
    var l1 := Off(ls, OfferEvent);
    OffNarrows(ls, OfferEvent, all);
    var s1 := all - {OfferEvent};
    var l2 := Off(l1, IceCandidateEvent);
    OffNarrows(l1, IceCandidateEvent, s1);
    var s2 := s1 - {IceCandidateEvent};
    var l3 := Off(l2, HostStoppedEvent);
    OffNarrows(l2, HostStoppedEvent, s2);
    var s3 := s2 - {HostStoppedEvent};
    var l4 := Off(l3, HostDisconnectedEvent);
    OffNarrows(l3, HostDisconnectedEvent, s3);
    var s4 := s3 - {HostDisconnectedEvent};
    var l5 := Off(l4, ErrorMessageEvent);
    OffNarrows(l4, ErrorMessageEvent, s4);
    assert s4 - {ErrorMessageEvent} == {};
  }

  /** The five `socket.on` registrations of one `joinRoom` call, bound to session `k`. */
  function Registrations(k: nat): (r: seq<Listener>)
    ensures |r| == |ListenedEvents|
    ensures forall i :: 0 <= i < |r| ==> r[i] == Listener(ListenedEvents[i], k)
  {
    seq(|ListenedEvents|, i requires 0 <= i < |ListenedEvents| => Listener(ListenedEvents[i], k))
  }

  /** Replace session `k` of `v` by `s`. */
  function WithSession(v: Viewer, k: nat, s: Session): (r: Viewer)
    requires v.Valid() && k < |v.sessions|
    ensures r.Valid()
  {
    v.(sessions := v.sessions[k := s])
  }

  /**
   * `joinRoom`: nothing without a room id. Otherwise close the current
   * connection, unsubscribe the five events, send `join-room`, make a new
   * session and subscribe the five events again, bound to it.
   */
  function OnJoin(v: Viewer, roomId: string, password: string): (r: Viewer)
    requires v.Valid()
    ensures r.Valid()
  {
    if roomId == "" then v
    else
      var sessions := match v.current
        case None => v.sessions
        case Some(c) => v.sessions[c := v.sessions[c].(pc := Close(v.sessions[c].pc))];
      var k := |v.sessions|;
      v.(sessions := sessions + [FreshSession],
         current := Some(k),
         listeners := OffListened(v.listeners) + Registrations(k),
         log := v.log + [JoinRoom(roomId, password)])
  }

  /**
   * The `offer` listener of session `k`. Outside the `stable` state the
   * offer is dropped. Once the remote description is set, `remoteSet`
   * becomes true and the queued candidates are added in order; the answer
   * is then made, set and sent back to the offer's sender.
   */
  function OnOffer(v: Viewer, k: nat, desc: Description, from: string, outcome: OfferOutcome): (r: Viewer)
    requires v.Valid() && k < |v.sessions|
    ensures r.Valid()
  {
    var s := v.sessions[k];
    if s.pc.signaling != Stable then v
    else match outcome
      case RemoteRejected => v
      case AnswerFailed =>
        var pc := s.pc.(signaling := HaveRemoteOffer, remote := Some(desc),
                        applied := s.pc.applied + s.pending);
        WithSession(v, k, Session(pc, true, []))
      case Answered(answerSdp) =>
        var answer := Description(AnswerType, answerSdp);
        var pc := s.pc.(signaling := Stable, remote := Some(desc), local := Some(answer),
                        applied := s.pc.applied + s.pending);
        WithSession(v, k, Session(pc, true, [])).(log := v.log + [AnswerTo(from, answer, v.socketId)])
  }

  /** The `ice-candidate` listener of session `k`: add at once, or queue until the offer is set. */
  function OnCandidate(v: Viewer, k: nat, c: Candidate): (r: Viewer)
    requires v.Valid() && k < |v.sessions|
    ensures r.Valid()
  {
    var s := v.sessions[k];
    if s.remoteSet then WithSession(v, k, s.(pc := AddCandidate(s.pc, c)))
    else WithSession(v, k, s.(pending := s.pending + [c]))
  }

  /** The listener of session `k` for a message. */
  function Handle(v: Viewer, k: nat, msg: Incoming): (r: Viewer)
    requires v.Valid() && k < |v.sessions|
    ensures r.Valid()
    ensures |r.sessions| == |v.sessions| && r.current == v.current && r.listeners == v.listeners
    ensures forall j :: 0 <= j < |v.sessions| && j != k ==> r.sessions[j] == v.sessions[j]
  {
    match msg
    case OfferIn(desc, from, outcome) => OnOffer(v, k, desc, from, outcome)
    case CandidateIn(_, c) => OnCandidate(v, k, c)
    case HostStoppedIn =>
      WithSession(v, k, v.sessions[k].(pc := Close(v.sessions[k].pc))).(showing := false)
    case HostDisconnectedIn =>
      WithSession(v, k, v.sessions[k].(pc := Close(v.sessions[k].pc))).(error := HostDisconnectedError)
    case ErrorIn(text) => v.(error := text)
  }

  /** Run, in order, every listener in `ls` registered for the message's event. */
  function Dispatch(v: Viewer, ls: seq<Listener>, msg: Incoming): (r: Viewer)
    requires v.Valid()
    requires forall i :: 0 <= i < |ls| ==> ls[i].session < |v.sessions|
    ensures r.Valid()
    ensures |r.sessions| == |v.sessions| && r.current == v.current && r.listeners == v.listeners
    decreases |ls|
  {
    if |ls| == 0 then v
    else
      var v1 := if ls[0].event == NameOf(msg) then Handle(v, ls[0].session, msg) else v;
      Dispatch(v1, ls[1..], msg)
  }

  /** A message arriving on the socket reaches the listeners registered at that moment. */
  function Deliver(v: Viewer, msg: Incoming): (r: Viewer)
    requires v.Valid()
    ensures r.Valid()
  {
    Dispatch(v, v.listeners, msg)
  }

  /** A connection's `onicecandidate`: forward a discovered candidate to the host. */
  function OnLocalCandidate(v: Viewer, k: nat, c: Option<Candidate>): (r: Viewer) {
    if k < |v.sessions| && c.Some? then v.(log := v.log + [IceCandidateTo(HostTarget, c.value)])
    else v
  }

  function Step(v: Viewer, e: Event): (r: Viewer)
    requires v.Valid()
    ensures r.Valid()
  {
    match e
    case Join(roomId, password) => OnJoin(v, roomId, password)
    case Receive(msg) => Deliver(v, msg)
    case LocalCandidate(k, c) => OnLocalCandidate(v, k, c)
    case TrackUnmuted(hasStream) => if hasStream then v.(showing := true) else v
  }

  function Run(v: Viewer, es: seq<Event>): (r: Viewer)
    requires v.Valid()
    ensures r.Valid()
    decreases |es|
  {
    if |es| == 0 then v else Run(Step(v, es[0]), es[1..])
  }
}

=== FILE: viewer_properties.dfy ===
/**
 * Properties of the viewer page: what `joinRoom` leaves behind, which
 * session a message reaches, how candidates are queued and flushed, and
 * what holds over a whole run of events after a join.
 */
module ViewerProperties {
  import opened Wrappers
  import opened Rtc
  import opened Viewer

  /** The listeners are the five of the current session, or none before the first join. */
  predicate Bound(v: Viewer) {
    && v.Valid()
    && (v.current.None? ==> v.listeners == [])
    && (v.current.Some? ==> v.listeners == Registrations(v.current.value))
  }

  /** Only the current session's connection can be open. */
  predicate OnlyCurrentOpen(v: Viewer) {
    && v.Valid()
    && forall j :: 0 <= j < |v.sessions| && Some(j) != v.current ==> v.sessions[j].pc.IsClosed()
  }

  predicate Inv(v: Viewer) {
    Bound(v) && OnlyCurrentOpen(v)
  }

  lemma InitialInv(socketId: string)
    ensures Inv(Initial(socketId))
  {
  }

  /** `joinRoom` without a room id does nothing at all. */
  lemma JoinWithoutRoomIdDoesNothing(v: Viewer, password: string)
    requires v.Valid()
    ensures Step(v, Join("", password)) == v
  {
  }

  /**
   * `joinRoom` with a room id: the connection that was current is closed,
   * the other sessions are untouched, a fresh session with an empty queue
   * and `remoteSet` false becomes current, and exactly one `join-room` is sent.
   */
  lemma JoinReplacesSession(v: Viewer, roomId: string, password: string)
    requires v.Valid() && roomId != ""
    ensures var r := OnJoin(v, roomId, password);
            && |r.sessions| == |v.sessions| + 1
            && r.current == Some(|v.sessions|)
            && r.sessions[|v.sessions|] == FreshSession
            && !r.sessions[|v.sessions|].remoteSet && r.sessions[|v.sessions|].pending == []
            && (v.current.Some? ==>
                  && r.sessions[v.current.value].pc.IsClosed()
                  && r.sessions[v.current.value].pending == v.sessions[v.current.value].pending
                  && r.sessions[v.current.value].remoteSet == v.sessions[v.current.value].remoteSet)
            && (forall j :: 0 <= j < |v.sessions| && Some(j) != v.current ==> r.sessions[j] == v.sessions[j])
            && r.log == v.log + [JoinRoom(roomId, password)]
  {
  }

  /**
   * After `joinRoom` with a room id every event has exactly one listener,
   * and that listener belongs to the new session.
   */
  lemma JoinRebindsListeners(v: Viewer, roomId: string, password: string)
    requires v.Valid() && roomId != ""
    ensures var r := OnJoin(v, roomId, password);
            && |r.listeners| == 5
            && (forall i :: 0 <= i < |r.listeners| ==> r.listeners[i].session == |v.sessions|)
            && (forall i, j :: 0 <= i < j < |r.listeners| ==> r.listeners[i].event != r.listeners[j].event)
            && (forall n: EventName :: r.listeners[IndexOf(n)].event == n)
  {
    var r := OnJoin(v, roomId, password);
    assert r.listeners == Registrations(|v.sessions|);
    RegistrationsOnePerEvent(|v.sessions|);
  }

  /** The five registrations name five different events, all bound to one session. */
  lemma RegistrationsOnePerEvent(k: nat)
    ensures var ls := Registrations(k);
            && (forall i :: 0 <= i < |ls| ==> ls[i].session == k)
            && (forall i, j :: 0 <= i < j < |ls| ==> ls[i].event != ls[j].event)
            && (forall n: EventName :: ls[IndexOf(n)].event == n)
  {
    var ls := Registrations(k);
    forall i, j | 0 <= i < j < |ls| ensures ls[i].event != ls[j].event {
      assert ls[i].event == ListenedEvents[i] && ls[j].event == ListenedEvents[j];
    }
  }

  /** `joinRoom` leaves the listeners bound to the new session and only it open. */
  lemma JoinKeepsInv(v: Viewer, roomId: string, password: string)
    requires Inv(v)
    ensures Inv(OnJoin(v, roomId, password))
  {
    if roomId != "" {
      JoinReplacesSession(v, roomId, password);
      var r := OnJoin(v, roomId, password);
      assert r.listeners == Registrations(|v.sessions|);
    }
  }

  /** Where an event sits among the five registrations. */
  function IndexOf(n: EventName): (i: nat)
    ensures i < |ListenedEvents| && ListenedEvents[i] == n
  {
    match n
    case OfferEvent => 0
    case IceCandidateEvent => 1
    case HostStoppedEvent => 2
    case HostDisconnectedEvent => 3
    case ErrorMessageEvent => 4
  }

  lemma {:induction false} DispatchNoMatch(v: Viewer, ls: seq<Listener>, msg: Incoming)
    requires v.Valid()
    requires forall i :: 0 <= i < |ls| ==> ls[i].session < |v.sessions| && ls[i].event != NameOf(msg)
    ensures Dispatch(v, ls, msg) == v
    decreases |ls|
  {
    if |ls| > 0 {
      DispatchNoMatch(v, ls[1..], msg);
    }
  }

  /** With exactly one listener for the message's event, the message runs that listener alone. */
  lemma {:induction false} DispatchOne(v: Viewer, ls: seq<Listener>, msg: Incoming, i: nat)
    requires v.Valid()
    requires forall j :: 0 <= j < |ls| ==> ls[j].session < |v.sessions|
    requires i < |ls| && ls[i].event == NameOf(msg)
    requires forall j :: 0 <= j < |ls| && j != i ==> ls[j].event != NameOf(msg)
    ensures Dispatch(v, ls, msg) == Handle(v, ls[i].session, msg)
    decreases |ls|
  {
    if i == 0 {
      var v1 := Handle(v, ls[0].session, msg);
      DispatchNoMatch(v1, ls[1..], msg);
    } else {
      DispatchOne(v, ls[1..], msg, i - 1);
    }
  }

  /**
   * A message reaches the current session's listener and no other: before
   * any join it changes nothing, afterwards it is exactly that listener's
   * effect, and every other session is left as it was.
   */
  lemma DeliverReachesCurrentOnly(v: Viewer, msg: Incoming)
    requires Bound(v)
    ensures v.current.None? ==> Deliver(v, msg) == v
    ensures v.current.Some? ==> Deliver(v, msg) == Handle(v, v.current.value, msg)
    ensures forall j :: 0 <= j < |v.sessions| && Some(j) != v.current ==>
              Deliver(v, msg).sessions[j] == v.sessions[j]
  {
    if v.current.Some? {
      var ls := v.listeners;
      var i := IndexOf(NameOf(msg));
      DispatchOne(v, ls, msg, i);
    }
  }

  /** Every event keeps the listeners bound to the current session and the older connections closed. */
  lemma StepKeepsInv(v: Viewer, e: Event)
    requires Inv(v)
    ensures Inv(Step(v, e))
  {
    match e {
      case Join(roomId, password) =>
        JoinKeepsInv(v, roomId, password);
      case Receive(msg) =>
        DeliverReachesCurrentOnly(v, msg);
      case _ =>
    }
  }

  /**
   * A candidate for the current session: added to the connection at once
   * when the remote description is set, otherwise appended to the queue and
   * not added. Nothing else about the session changes, nothing is sent.
   */
  lemma CandidateQueuedUntilRemoteSet(v: Viewer, from: string, c: Candidate)
    requires Bound(v) && v.current.Some?
    ensures var k := v.current.value;
            var s := v.sessions[k];
            var r := Deliver(v, CandidateIn(from, c)).sessions[k];
            && r.remoteSet == s.remoteSet
            && (s.remoteSet ==> r.pc.applied == s.pc.applied + [c] && r.pending == s.pending)
            && (!s.remoteSet ==> r.pc == s.pc && r.pending == s.pending + [c])
            && r.pc.signaling == s.pc.signaling
    ensures Deliver(v, CandidateIn(from, c)).log == v.log
  {
    DeliverReachesCurrentOnly(v, CandidateIn(from, c));
  }

  /** An offer outside the `stable` state, or one whose description is refused, changes nothing. */
  lemma OfferIgnoredUnlessStable(v: Viewer, desc: Description, from: string, outcome: OfferOutcome)
    requires Bound(v) && v.current.Some?
    requires v.sessions[v.current.value].pc.signaling != Stable || outcome == RemoteRejected
    ensures Deliver(v, OfferIn(desc, from, outcome)) == v
  {
    DeliverReachesCurrentOnly(v, OfferIn(desc, from, outcome));
  }

  /**
   * An offer accepted in the `stable` state: `remoteSet` becomes true, the
   * queued candidates are added after the ones already added, in arrival
   * order, and the queue is emptied. If the answer is made, exactly one
   * `answer` goes back to the offer's sender; if not, nothing is sent and
   * the connection is left waiting with the remote offer, so later offers
   * are dropped.
   */
  lemma OfferFlushesQueue(v: Viewer, desc: Description, from: string, outcome: OfferOutcome)
    requires Bound(v) && v.current.Some?
    requires v.sessions[v.current.value].pc.signaling == Stable && outcome != RemoteRejected
    ensures var k := v.current.value;
            var s := v.sessions[k];
            var r := Deliver(v, OfferIn(desc, from, outcome));
            && r.sessions[k].remoteSet
            && r.sessions[k].pc.applied == s.pc.applied + s.pending
            && r.sessions[k].pending == []
            && r.sessions[k].pc.remote == Some(desc)
            && (outcome.AnswerFailed? ==>
                  r.log == v.log && r.sessions[k].pc.signaling == HaveRemoteOffer)
            && (outcome.Answered? ==>
                  && r.log == v.log + [AnswerTo(from, Description(AnswerType, outcome.answerSdp), v.socketId)]
                  && r.sessions[k].pc.local == Some(Description(AnswerType, outcome.answerSdp))
                  && r.sessions[k].pc.signaling == Stable)
  {
    DeliverReachesCurrentOnly(v, OfferIn(desc, from, outcome));
  }

  /**
   * `host-stopped` detaches the video and closes the current connection;
   * `host-disconnected` reports the disconnection and closes it. Neither
   * sends anything.
   */
  lemma HostGoneClosesConnection(v: Viewer)
    requires Bound(v) && v.current.Some?
    ensures var r := Deliver(v, HostStoppedIn);
            !r.showing && r.sessions[v.current.value].pc.IsClosed() && r.log == v.log
            && r.error == v.error
    ensures var r := Deliver(v, HostDisconnectedIn);
            r.error == HostDisconnectedError && r.sessions[v.current.value].pc.IsClosed()
            && r.log == v.log
  {
    DeliverReachesCurrentOnly(v, HostStoppedIn);
    DeliverReachesCurrentOnly(v, HostDisconnectedIn);
  }

  /** `error-message` after a join sets the shown error and changes nothing else. */
  lemma ErrorMessageShown(v: Viewer, text: string)
    requires Bound(v) && v.current.Some?
    ensures Deliver(v, ErrorIn(text)) == v.(error := text)
  {
    DeliverReachesCurrentOnly(v, ErrorIn(text));
  }

  /** An unmuted track shows the video when the event carries a stream; otherwise nothing changes. */
  lemma TrackUnmutedShowsVideo(v: Viewer, hasStream: bool)
    requires v.Valid()
    ensures hasStream ==> Step(v, TrackUnmuted(hasStream)) == v.(showing := true)
    ensures !hasStream ==> Step(v, TrackUnmuted(hasStream)) == v
  {
  }

  /**
   * The candidate bookkeeping of a session against the candidates that have
   * arrived for it: what was added followed by what is queued is exactly
   * the arrival sequence; before the remote description nothing was added,
   * after it nothing is queued.
   */
  predicate CandidateLog(s: Session, arrived: seq<Candidate>) {
    && s.pc.applied + s.pending == arrived
    && (s.remoteSet ==> s.pending == [])
    && (!s.remoteSet ==> s.pc.applied == [])
  }

  /** The candidates the socket delivers in a run of events, in order. */
  function Arrivals(es: seq<Event>): (cs: seq<Candidate>)
    decreases |es|
  {
    if |es| == 0 then []
    else match es[0]
      case Receive(CandidateIn(_, c)) => [c] + Arrivals(es[1..])
      case _ => Arrivals(es[1..])
  }

  /** The candidate one event delivers, if any. */
  function ArrivalOf(e: Event): (cs: seq<Candidate>) {
    if e.Receive? && e.msg.CandidateIn? then [e.msg.candidate] else []
  }

  lemma ArrivalsHead(es: seq<Event>)
    requires |es| > 0
    ensures Arrivals(es) == ArrivalOf(es[0]) + Arrivals(es[1..])
  {
  }

  predicate NoJoin(es: seq<Event>) {
    forall i :: 0 <= i < |es| ==> !es[i].Join?
  }

  lemma NoJoinTail(es: seq<Event>)
    requires |es| > 0 && NoJoin(es)
    ensures !es[0].Join? && NoJoin(es[1..])
  {
    forall i | 0 <= i < |es[1..]| ensures !es[1..][i].Join? {
      assert es[1..][i] == es[i + 1];
    }
  }

  /** One event keeps the current session's bookkeeping in step with the arrivals. */
  lemma StepKeepsCandidateLog(v: Viewer, e: Event, arrived: seq<Candidate>)
    requires Inv(v) && v.current.Some? && !e.Join?
    requires CandidateLog(v.sessions[v.current.value], arrived)
    ensures Step(v, e).current == v.current
    ensures CandidateLog(Step(v, e).sessions[v.current.value], arrived + ArrivalOf(e))
  {
    var k := v.current.value;
    var s := v.sessions[k];
    match e {
      case Receive(msg) =>
        DeliverReachesCurrentOnly(v, msg);
        match msg {
          case CandidateIn(from, c) =>
            CandidateQueuedUntilRemoteSet(v, from, c);
            if !s.remoteSet {
              assert s.pc.applied + (s.pending + [c]) == arrived + [c];
            }
          case OfferIn(desc, from, outcome) =>
            if s.pc.signaling == Stable && outcome != RemoteRejected {
              OfferFlushesQueue(v, desc, from, outcome);
              assert s.pc.applied + s.pending + [] == arrived;
            } else {
              OfferIgnoredUnlessStable(v, desc, from, outcome);
            }
          case _ =>
        }
      case _ =>
    }
  }

  /**
   * Over any run without a new join, the current session stays current and
   * its added-then-queued candidates are exactly the arrivals, in order.
   */
  lemma {:induction false} RunKeepsCandidateLog(v: Viewer, es: seq<Event>, arrived: seq<Candidate>)
    requires Inv(v) && v.current.Some? && NoJoin(es)
    requires CandidateLog(v.sessions[v.current.value], arrived)
    ensures Inv(Run(v, es)) && Run(v, es).current == v.current
    ensures CandidateLog(Run(v, es).sessions[v.current.value], arrived + Arrivals(es))
    decreases |es|
  {
    if |es| == 0 {
      assert arrived + [] == arrived;
    } else {
      var e := es[0];
      var v1 := Step(v, e);
      StepKeepsInv(v, e);
      StepKeepsCandidateLog(v, e, arrived);
      NoJoinTail(es);
      RunKeepsCandidateLog(v1, es[1..], arrived + ArrivalOf(e));
      ArrivalsHead(es);
      AppendAssoc(arrived, ArrivalOf(e), Arrivals(es[1..]));
    }
  }

  /** Concatenation regrouped; kept apart so the run proof above stays cheap. */
  lemma AppendAssoc(a: seq<Candidate>, b: seq<Candidate>, c: seq<Candidate>)
    ensures a + b + c == a + (b + c)
  {
  }

  /**
   * A join followed by any run without another join: the new session's
   * added candidates are exactly the arrivals in arrival order, each once,
   * as soon as the remote description is set; until then all are queued
   * and none is added.
   */
  lemma JoinThenCandidatesInArrivalOrder(v: Viewer, roomId: string, password: string, es: seq<Event>)
    requires Inv(v) && roomId != "" && NoJoin(es)
    ensures var r := Run(OnJoin(v, roomId, password), es);
            && r.current == Some(|v.sessions|)
            && (r.sessions[|v.sessions|].remoteSet ==>
                  r.sessions[|v.sessions|].pc.applied == Arrivals(es)
                  && r.sessions[|v.sessions|].pending == [])
            && (!r.sessions[|v.sessions|].remoteSet ==>
                  r.sessions[|v.sessions|].pc.applied == []
                  && r.sessions[|v.sessions|].pending == Arrivals(es))
  {
    var v1 := OnJoin(v, roomId, password);
    JoinReplacesSession(v, roomId, password);
    JoinKeepsInv(v, roomId, password);
    assert CandidateLog(v1.sessions[|v.sessions|], []);
    RunKeepsCandidateLog(v1, es, []);
    assert [] + Arrivals(es) == Arrivals(es);
  }

  /** A run without a join leaves every session but the current one exactly as it was. */
  lemma {:induction false} RunLeavesOtherSessionsAlone(v: Viewer, es: seq<Event>)
    requires Inv(v) && v.current.Some? && NoJoin(es)
    ensures var r := Run(v, es);
            && |r.sessions| == |v.sessions|
            && forall j :: 0 <= j < |v.sessions| && Some(j) != v.current ==> r.sessions[j] == v.sessions[j]
    decreases |es|
  {
    if |es| > 0 {
      var e := es[0];
      StepKeepsInv(v, e);
      match e {
        case Receive(msg) => DeliverReachesCurrentOnly(v, msg);
        case _ =>
      }
      assert Step(v, e).current == v.current;
      NoJoinTail(es);
      RunLeavesOtherSessionsAlone(Step(v, e), es[1..]);
    }
  }

  /**
   * Joining one room and then another: the first room's session is closed
   * by the second join and nothing that happens afterwards, short of another
   * join, reaches it.
   */
  lemma RejoinIsolatesOldSession(v: Viewer, roomA: string, pwA: string, roomB: string, pwB: string,
                                 es: seq<Event>)
    requires Inv(v) && roomA != "" && roomB != "" && NoJoin(es)
    ensures var a := OnJoin(v, roomA, pwA);
            var b := OnJoin(a, roomB, pwB);
            var r := Run(b, es);
            && r.current == Some(|v.sessions| + 1)
            && r.sessions[|v.sessions|] == b.sessions[|v.sessions|]
            && r.sessions[|v.sessions|].pc.IsClosed()
  {
    var a := OnJoin(v, roomA, pwA);
    JoinReplacesSession(v, roomA, pwA);
    JoinKeepsInv(v, roomA, pwA);
    var b := OnJoin(a, roomB, pwB);
    JoinReplacesSession(a, roomB, pwB);
    JoinKeepsInv(a, roomB, pwB);
    assert CandidateLog(b.sessions[|a.sessions|], []);
    RunKeepsCandidateLog(b, es, []);
    RunLeavesOtherSessionsAlone(b, es);
  }

  /**
   * The listeners never look at who sent a candidate, so isolation does not
   * hold the other way round. After joining room A and then room B, a
   * candidate from any sender, A's host included, is queued in B's session.
   * It is added to B's connection once B's offer is set.
   */
  lemma RejoinedSessionTakesOldHostsCandidates(v: Viewer, roomA: string, pwA: string, roomB: string,
                                               pwB: string, from: string, c: Candidate)
    requires Inv(v) && roomA != "" && roomB != ""
    ensures var b := OnJoin(OnJoin(v, roomA, pwA), roomB, pwB);
            var r := Step(b, Receive(CandidateIn(from, c)));
            && r.sessions[|v.sessions| + 1].pending == [c]
            && r.sessions[|v.sessions| + 1].pc.applied == []
            && r.log == b.log
  {
    var a := OnJoin(v, roomA, pwA);
    JoinReplacesSession(v, roomA, pwA);
    JoinKeepsInv(v, roomA, pwA);
    var b := OnJoin(a, roomB, pwB);
    JoinReplacesSession(a, roomB, pwB);
    JoinKeepsInv(a, roomB, pwB);
    CandidateQueuedUntilRemoteSet(b, from, c);
  }

  /**
   * Likewise for offers: after joining room A and then room B, an offer from
   * any sender, A's host included, is accepted by B's fresh connection, and
   * B answers that sender.
   */
  lemma RejoinedSessionAnswersAnyOffer(v: Viewer, roomA: string, pwA: string, roomB: string,
                                       pwB: string, from: string, desc: Description, answerSdp: string)
    requires Inv(v) && roomA != "" && roomB != ""
    ensures var b := OnJoin(OnJoin(v, roomA, pwA), roomB, pwB);
            var r := Step(b, Receive(OfferIn(desc, from, Answered(answerSdp))));
            && r.sessions[|v.sessions| + 1].pc.remote == Some(desc)
            && r.log == b.log + [AnswerTo(from, Description(AnswerType, answerSdp), v.socketId)]
  {
    var a := OnJoin(v, roomA, pwA);
    JoinReplacesSession(v, roomA, pwA);
    JoinKeepsInv(v, roomA, pwA);
    var b := OnJoin(a, roomB, pwB);
    JoinReplacesSession(a, roomB, pwB);
    JoinKeepsInv(a, roomB, pwB);
    OfferFlushesQueue(b, desc, from, Answered(answerSdp));
  }

  /**
   * Three candidates arriving before the offer are all queued and none is
   * added; once the offer is answered all three are added in their arrival
   * order and exactly one answer goes back to the offer's sender.
   */
  lemma EarlyCandidatesFlushedInOrder(v: Viewer, roomId: string, password: string, from: string,
                                      c1: Candidate, c2: Candidate, c3: Candidate,
                                      desc: Description, answerSdp: string)
    requires Inv(v) && roomId != ""
    ensures var k := |v.sessions|;
            var v1 := OnJoin(v, roomId, password);
            var v2 := Step(v1, Receive(CandidateIn(from, c1)));
            var v3 := Step(v2, Receive(CandidateIn(from, c2)));
            var v4 := Step(v3, Receive(CandidateIn(from, c3)));
            var v5 := Step(v4, Receive(OfferIn(desc, from, Answered(answerSdp))));
            && v4.sessions[k].pc.applied == [] && v4.sessions[k].pending == [c1, c2, c3]
            && v5.sessions[k].pc.applied == [c1, c2, c3] && v5.sessions[k].pending == []
            && v5.log == v1.log + [AnswerTo(from, Description(AnswerType, answerSdp), v.socketId)]
  {
    var k := |v.sessions|;
    var v1 := OnJoin(v, roomId, password);
    JoinReplacesSession(v, roomId, password);
    JoinKeepsInv(v, roomId, password);
    var v2 := Step(v1, Receive(CandidateIn(from, c1)));
    CandidateQueuedUntilRemoteSet(v1, from, c1);
    StepKeepsInv(v1, Receive(CandidateIn(from, c1)));
    DeliverReachesCurrentOnly(v1, CandidateIn(from, c1));
    var v3 := Step(v2, Receive(CandidateIn(from, c2)));
    CandidateQueuedUntilRemoteSet(v2, from, c2);
    StepKeepsInv(v2, Receive(CandidateIn(from, c2)));
    DeliverReachesCurrentOnly(v2, CandidateIn(from, c2));
    var v4 := Step(v3, Receive(CandidateIn(from, c3)));
    CandidateQueuedUntilRemoteSet(v3, from, c3);
    StepKeepsInv(v3, Receive(CandidateIn(from, c3)));
    DeliverReachesCurrentOnly(v3, CandidateIn(from, c3));
    assert v4.sessions[k].pending == [c1, c2, c3];
    OfferFlushesQueue(v4, desc, from, Answered(answerSdp));
  }

  /** A candidate any of the viewer's connections discovers is addressed to the host. */
  lemma LocalCandidateAddressedToHost(v: Viewer, k: nat, c: Candidate)
    requires v.Valid() && k < |v.sessions|
    ensures var r := Step(v, LocalCandidate(k, Some(c)));
            r == v.(log := v.log + [IceCandidateTo(HostTarget, c)])
  {
  }
}

=== FILE: wrappers.dfy ===
/** The optional-value datatype shared by every module of the model. */
module Wrappers {

  /** `None` stands for JavaScript's `null`/`undefined`. */
  datatype Option<+T> = None | Some(value: T)
}
